=== FILE: README.md ===
# A verified model of the Pygame3d core

Pygame3d is a small software 3D renderer written on top of pygame. Most of its work is
floating-point projection and drawing. Five parts of it, however, are discrete logic that
can be stated and proved exactly. This project models those five in Dafny:

- **Texture atlas** (`Textures`, textures.py). A list of textures and a table from alias to
  list index. The empty alias names the default texture in slot 0. `add_tex` appends a
  texture or overwrites one. Lookups of unknown aliases raise KeyError.
- **Input state machine** (`Events`, event_checker.py). An alias table maps action names to
  key codes. A state table maps key codes to "held down". `check_key_press` consumes one
  frame's events. Here that is a sequence of abstract events (QUIT, KEYDOWN, KEYUP, other)
  rather than a call into pygame.
- **OBJ winding flipper** (`ObjWinding`, utils.py). `ccwify_obj_file` first checks the
  path and names the output file. It then copies the file line by line, rewriting each face
  line (`f ...`) with its vertex references in reverse order.
- **Cube-mesh merger** (`Meshes`, meshes.py). `merge_meshes` walks the meshes in order.
  It withholds a later triangle whose three vertices were all in the point list most
  recently recorded for its plane. It then removes already kept triangles that lie on the
  points of the withheld triangles. Each mesh's lists replace the earlier ones for the same
  planes, and the first mesh records only empty lists. So two meshes, adjacent cubes
  included, merge to their plain concatenation. The model also covers the unit cube and
  its shifted copies.
- **Camera and controls** (`CameraModel`, camera.py; `Controls`, main.py). Yaw and pitch
  are whole degrees. Translations follow the yaw. The main loop applies a per-frame
  rotation rule with wrap-around for yaw and a guarded range for pitch.

Shared definitions live in `Basics`. They model Python's exceptions as a `Result`
(KeyError, IndexError, FileNotFoundError, TypeError), dictionary lookup, and list
indexing with negative indices.

The atlas has no fallback to the default texture: `alias_lookup` and `__getitem__`
(textures.py:22-27) raise KeyError for an unknown alias.

## Model

| member | source | states |
|---|---|---|
| Textures.New | textures.py:8-12 | A new atlas satisfies the class invariant. Its only alias is `''`, its only texture is the default, and looking up `''` gives the default. |
| Textures.AddTex | textures.py:14-20 | The invariant is kept: `''` maps to 0, the aliases map injectively into the list positions, and there are as many aliases as textures. Afterwards the alias is present and names the new texture. A new alias gets the old list length and the list grows by one. A known alias keeps the list length. Every other alias keeps its index, and every other slot keeps its texture. |
| Textures.AddTexKeepsOtherLookups | textures.py:14-24 | After `add_tex`, every other alias looks up exactly what it looked up before. |
| Textures.EveryIndexNamed | textures.py:10-20 | Under the invariant, the alias table is a bijection onto the positions `0 .. len(textures)-1`: every slot is named by some alias. |
| Textures.AliasLookup | textures.py:22-24 | An unknown alias raises KeyError, with no fallback. A known alias in a valid atlas gives the texture at its index. |
| Textures.GetItem | textures.py:26-27 | An int key indexes the texture list, Python style: negative indices count from the end and out-of-range indices raise IndexError. Any other key returns the alias's index, or raises KeyError. |
| Textures.DoubleIndexIsLookup | textures.py:22-27 | `atlas[atlas[a]]` is the texture `alias_lookup(a)` returns. |
| Textures.Contains | textures.py:29-30 | In a valid atlas, `a in atlas` holds exactly when `alias_lookup(a)` succeeds. |
| Events.New | event_checker.py:9-14 | The aliases are the given bindings plus `quit`. A given `quit` binding overrides the default QUIT code. The state table holds exactly the bound key codes, and `get_state` of every alias is False. |
| Events.RegisterEvent | event_checker.py:16-20 | The alias is bound to the key and its state reads False. Other aliases are unchanged. The state table gains the key and keeps every other entry, including the entry of the alias's previous key. |
| Events.RemoveEvent | event_checker.py:22-26 | The call succeeds exactly when the alias is bound and its key has a state; otherwise it raises KeyError. On success, exactly the alias and its key's state are deleted and everything else is untouched. |
| Events.RemoveOrphansSharedKey | event_checker.py:22-26 | After removing an alias, any other alias bound to the same key has no state entry, so its `get_state` raises KeyError. |
| Events.GetState | event_checker.py:45-48 | `get_state(a)` is `states[aliases[a]]`. It raises KeyError when either lookup fails. |
| Events.ApplyEvent | event_checker.py:32-43 | One turn of the event loop: QUIT is set, and a KEYDOWN or KEYUP writes a key only when it has a state. It has no contract of its own; `RunEvents`, `LastEventDecides`, `QuitSticks` and `UnboundKeysIgnored` state its effect. |
| Events.RunEvents | event_checker.py:31-43 | Processing a frame's events never adds a state entry, except QUIT when a QUIT event occurs. |
| Events.CheckKeyPress | event_checker.py:28-43 | The alias table is untouched. The state table keeps its keys, plus QUIT if a QUIT event occurred. |
| Events.LastEventDecides | event_checker.py:35-43 | The last event that speaks about a key decides its state: KEYDOWN sets it, KEYUP clears it. A key no event speaks about keeps its state. |
| Events.QuitSticks | event_checker.py:32-33 | After a QUIT event the QUIT state is True. Only a KEYUP carrying QUIT's own code could clear it. |
| Events.UnboundKeysIgnored | event_checker.py:37-43 | Key events for keys with no state entry leave the state table unchanged. |
| Events.NewWithBindings | event_checker.py:9-14 | With bindings that may be sets, the constructor raises TypeError exactly when some binding is a set, because a set cannot be a dictionary key. Otherwise the aliases are the given ones plus `quit`, each bound to its single key code, with `quit` bound to QUIT unless given, and every given alias reads False. The state table holds exactly the bound key codes, QUIT included, all False: the result is the single-key constructor `Events.New` on the same codes. |
| Events.MainBindingsRejected | main.py:41-56 | The binding table main.py passes makes the constructor raise TypeError. |
| ObjWinding.CheckPath | utils.py:8-9 | A path is accepted exactly when its last four characters are `.obj`. A shorter path is rejected. A rejected path raises FileNotFoundError. An accepted path is its stem followed by `.obj`. |
| ObjWinding.OutputPath | utils.py:14 | The output name is the input minus its last four characters, followed by `_ccw.obj`. That name would itself pass the check. |
| ObjWinding.FlipLine | utils.py:19-24 | The rewrite of one line. It has no contract of its own; `FlipLineFace`, `FlipTwiceRestoresTokens` and `FlipThriceIsFlip` state what it does, and `FlipLines` that other lines are copied. |
| ObjWinding.FlipLines | utils.py:18-24 | One output line per input line, in order. Non-face lines are copied verbatim. Each face line stays a face line whose vertex references are the original ones reversed. |
| ObjWinding.Ccwify | utils.py:3-24 | Given that the input file can be read, the function fails with FileNotFoundError exactly when the path check fails. Otherwise the output file has the derived name and holds the rewritten lines, one per input line. |
| ObjWinding.Split | utils.py:20 | `str.split()` returns only non-empty, whitespace-free tokens. |
| ObjWinding.SplitJoin | utils.py:20-22 | Splitting the single-space join of tokens, followed by any whitespace, gives the tokens back. |
| ObjWinding.FlipLineFace | utils.py:19-22 | A rewritten face line starts with `f `, ends with a newline, and its references are the original references reversed. |
| ObjWinding.FlipTwiceRestoresTokens | utils.py:20-22 | The rewrite keeps the number of references, and rewriting twice restores their original order. |
| ObjWinding.FlipThriceIsFlip | utils.py:18-24 | A third rewrite equals the first, for every line: after one pass a face line is in normal form. |
| Meshes.PlaneOf | meshes.py:11-15 | Each component of the plane key is the coordinate shared by all three vertices on that axis, or None when they differ. |
| Meshes.PlaneOfOrderFree | meshes.py:11-15 | The plane key does not depend on the order of the vertices. |
| Meshes.Scan | meshes.py:24-28 | The points missing from the recorded list are collected, and the rest are counted. The count reaches three exactly when every vertex is recorded. |
| Meshes.ScanFindsAll | meshes.py:21-30 | A triangle is withheld (counter 3) exactly when all three of its vertices were recorded for its plane by earlier meshes. |
| Meshes.VisitTriangle | meshes.py:10-39 | One turn of the loop over a mesh's triangles. It has no contract of its own; `ScanFindsAll`, `AddNew` and the `FirstPass` lemmas state its effect. |
| Meshes.FirstPass | meshes.py:10-39 | The loop over a mesh's triangles. It has no contract of its own; `FirstPassKeeps`, `FirstPassBad`, `FirstPassPlanes` and `NothingWithheld` describe it. |
| Meshes.FirstPassKeeps | meshes.py:10-31 | The pass over a mesh keeps, in order, exactly the triangles not entirely recorded for their plane. |
| Meshes.FirstPassBad | meshes.py:30-39 | A plane gets a bad-point list exactly when a withheld triangle lies on it. The list holds exactly the vertices of such triangles. |
| Meshes.FirstPassPlanes | meshes.py:16-28 | Every plane of the mesh gets a list. For a plane recorded earlier, the list holds exactly the vertices of its triangles that were not recorded; a plane no earlier mesh recorded gets an empty list. |
| Meshes.Recorded | meshes.py:41-56 | The collection of `badtris`: the triangles of `newmesh` lying entirely on the bad points of their plane, in order. Its contract only says every element qualifies; `RemovalPassIsFilter` uses it against `Unrecorded`. |
| Meshes.RemoveFirst | meshes.py:58 | `list.remove` takes away exactly one occurrence of the triangle and keeps every other element. |
| Meshes.RemoveFirstAt | meshes.py:58 | The occurrence removed is the first one, and the rest keep their order: if `i` holds the triangle and no earlier position does, the result is the list without position `i`. |
| Meshes.RemoveEach | meshes.py:57-58 | `for tri in badtris: newmesh.remove(tri)`. It has no contract of its own; `RemovalPassIsFilter` states its result. |
| Meshes.RemovalPassIsFilter | meshes.py:41-58 | Removing the collected triangles one `list.remove` at a time keeps exactly the triangles with some vertex outside the current mesh's bad points for their plane, in order. |
| Meshes.MergeStep | meshes.py:7-59 | One turn of the loop over the meshes. It has no contract of its own; `MergeStepSubseq`, `MergeOne`, `MergeTwo` and `ThreeCopiesVanish` describe it. |
| Meshes.MergeMeshes | meshes.py:2-67 | `merge_meshes`. It has no contract of its own; `MergeIsSubsequence`, `MergeNone`, `MergeOne`, `MergeTwo` and `ThreeCopiesVanish` describe it. |
| Meshes.MergeIsSubsequence | meshes.py:2-67 | The merged mesh is a subsequence of the input meshes concatenated. |
| Meshes.MergeStepSubseq | meshes.py:7-59 | One turn of the loop over the meshes keeps the result a subsequence of the meshes seen so far. |
| Meshes.AddNew | meshes.py:34-39 | A bad-point list afterwards holds exactly the points it held plus the triangle's vertices. |
| Meshes.NothingWithheld | meshes.py:21-39 | When no triangle of a mesh has all vertices recorded, the pass keeps the whole mesh and creates no bad-point list. |
| Meshes.MergeNone | meshes.py:4-7 | Merging no meshes gives the empty mesh. |
| Meshes.MergeOne | meshes.py:7-59 | A single mesh comes back unchanged, and every list it records is empty. |
| Meshes.MergeTwo | meshes.py:16-59 | Two meshes merge to their concatenation, because the first records only empty lists. |
| Meshes.ThreeCopiesVanish | meshes.py:2-67 | A one-triangle mesh merged three times vanishes entirely. The second copy records the points, and the third copy's removal pass deletes both kept copies. |
| Meshes.ShiftMesh | meshes.py:108-121 | A shifted copy has as many triangles as the original, with every vertex moved by the offset. |
| Meshes.ShiftMeshInverse | meshes.py:108-121 | Shifting back by the opposite offset restores the mesh. |
| Meshes.ShiftMovesPlane | meshes.py:108-121 | A shifted triangle lies on the shifted plane. |
| Meshes.CubeCopies | meshes.py:91-121 | Each of the eleven copies of the cube has twelve triangles. Each vertex is the matching cube vertex moved by that copy's offset. |
| CameraModel.NewCamera | camera.py:8-14 | The constructor stores the given position and rotations and starts the zoom factor at 1.0. |
| CameraModel.DefaultCamera | camera.py:8-14 | With every default, the camera is at the origin, unrotated, with zoom factor 1.0. |
| CameraModel.RotateCam | camera.py:61-63 | Yaw and pitch grow by exactly the given amounts. The position and zoom are untouched. |
| CameraModel.RotateComposes | camera.py:61-63 | Two rotations compose by adding their amounts, and the opposite rotation undoes one. |
| CameraModel.TranslateCam | camera.py:49-59 | The height drops by exactly the vector's second component. The x/z displacement is `(tx*c + tz*s, -tx*s + tz*c)`. Yaw, pitch and zoom are unchanged. |
| CameraModel.TranslateInverse | camera.py:49-59 | Translating by the opposite vector at the same yaw restores the camera. |
| CameraModel.TranslateUnrotated | camera.py:51-59 | At yaw zero (`c = 1`, `s = 0`) the position becomes `position + (tx, -ty, tz)`. The zero vector moves nothing at any yaw. |
| CameraModel.TranslateIgnoresPitch | camera.py:51-59 | The new position depends on the yaw only, never on the pitch. |
| CameraModel.TranslateKeepsHorizontalLength | camera.py:51-59 | When `c*c + s*s == 1`, the horizontal displacement is as long as the vector's horizontal part. |
| CameraModel.TranslateStored | camera.py:49-59 | With the position stored as a tuple, translating raises TypeError and nothing moves. With a list, the position moves as `TranslateCam` says, and yaw, pitch and zoom are unchanged. |
| CameraModel.MainCameraCannotMove | main.py:37 | The camera main.py builds, with a tuple position, raises TypeError on every translation. |
| Controls.TurnLeft | main.py:82-85 | rot_left turns three degrees left: a yaw above 3 drops by exactly 3, and a yaw at or below 3 (which would land at or below 0) becomes 360. From a yaw in [0, 360] it lands in (0, 360] and stays a multiple of 3. Pitch, position and zoom are untouched. |
| Controls.TurnRight | main.py:86-89 | rot_right turns three degrees right: a yaw below 357 grows by exactly 3, and a yaw at or above 357 (which would land at or above 360) becomes 0. From a yaw in [0, 360] it lands in [0, 360) and stays a multiple of 3. Pitch, position and zoom are untouched. |
| Controls.TiltDown | main.py:91-93 | A pitch above -90 drops by exactly 3; at or below -90 the camera is unchanged. So rot_down never raises the pitch. From a pitch on the 3-degree grid at or above -90, it stays on the grid at or above -90. Yaw, position and zoom are untouched. |
| Controls.TiltUp | main.py:94-96 | A pitch below 90 grows by exactly 3; at or above 90 the camera is unchanged. So rot_up never lowers the pitch. From a pitch on the 3-degree grid at or below 90, it stays on the grid at or below 90. Yaw, position and zoom are untouched. |
| Controls.StepsUndo | main.py:82-96 | Away from the wrap points, rot_right undoes rot_left and rot_left undoes rot_right. Strictly inside the pitch range, rot_up undoes rot_down and rot_down undoes rot_up. |
| Controls.YawStep | main.py:82-89 | rot_left alone is `TurnLeft`, rot_right alone is `TurnRight`, and neither leaves the camera unchanged. With both held, left is applied before right, so yaw in (3, 360) comes back to itself and any other yaw ends at 0 (from 3: left wraps to 360, right wraps to 0). Yaw stays in [0, 360] and on the 3-degree grid; pitch, position and zoom are untouched. |
| Controls.PitchStep | main.py:91-96 | rot_down alone is `TiltDown`, rot_up alone is `TiltUp`, and neither leaves the camera unchanged. With both held, down is applied before up: a pitch in (-90, 90] comes back to itself, and -90 ends at -87. A pitch on the 3-degree grid in [-90, 90] stays so; yaw, position and zoom are untouched. |
| Controls.FrameRotate | main.py:82-96 | One frame's yaw is what the yaw keys alone give (`YawStep`) and its pitch what the pitch keys alone give (`PitchStep`). Position and zoom never change, and nothing changes without a rotation action. It keeps the orientation invariant: yaw in [0, 360], pitch in [-90, 90], both multiples of 3. |
| Controls.SingleTurnRanges | main.py:82-89 | rot_left alone leaves yaw in (0, 360]. rot_right alone leaves it in [0, 360). |
| Controls.AxesIndependent | main.py:82-96 | Yaw actions never change pitch, and pitch actions never change yaw. |
| Controls.PitchOffGridEscapes | main.py:91-93 | The pitch bound needs the multiple of 3: from -89, rot_down reaches -92. |
| Controls.RunFrames | main.py:59-96 | The camera after a sequence of frames, each applying `FrameRotate`. It has no contract of its own; `OrientationReachable` states what it keeps. |
| Controls.OrientationReachable | main.py:37-96 | From an unrotated camera, every sequence of rotation frames keeps yaw in [0, 360] and pitch in [-90, 90], both multiples of 3, and leaves the position unchanged. |

## Left out

- Camera projection (`transform_about_cam`, camera.py:16-46) is left out. It is trigonometric floating-point geometry.
- The whole renderer (renderer.py) is left out: projection, culling, texturing and drawing.
- The translation and zoom steps of main.py (lines 67-80 and 98-103) are left out. They use float constants. Translation itself is modelled by `CameraModel.TranslateCam`.
- The window, clock, blit and loop plumbing of main.py are left out.
- pygame initialisation and event polling are left out. `check_key_press` receives the frame's events as a sequence.
- Image loading in `Atlas.__init__` is left out. The default texture is a parameter, and textures are opaque values.
- Opening, reading and writing files in `ccwify_obj_file` is left out. The input file is its list of lines, and the output file is the list of chunks written, in order.
- Floating point: camera coordinates and the zoom factor are real numbers. Cosine and sine of the yaw are parameters, so rounding is not modelled.
- The mutable default list of `Camera.__init__` (camera.py:8) is not modelled. Two cameras built without a position would share one list. Positions here are values, so that aliasing does not arise.
- ObjWinding.Ccwify: the FileNotFoundError (or other OSError) that `open` raises at utils.py:11 for a missing or unreadable `.obj` file is not represented, because the file's contents are a parameter.
- Events.QuitSticks: it needs no KEYUP carrying QUIT's code (256) in the frame, because the state table shares QUIT's code with the keyboard codes and such an event would clear the QUIT state.

## Findings

| source | as written | input that shows it | evidently intended | confidence | as-written member | corrected member |
|---|---|---|---|---|---|---|
| main.py:41-56 | Every binding passed to `EventChecker` is a set of key codes. The constructor uses each binding as a dictionary key (event_checker.py:14), so it raises TypeError. | The bindings main.py builds, e.g. `'forward': {K_w, K_UP}` | One key code per binding, as `check_key_press` compares `event.key` against the state keys (event_checker.py:37-43) | not executed | Events.MainBindingsRejected | Events.New |
| main.py:37 | The camera's position is a tuple `(0, 0, -2)`. `translate_cam` updates it in place (camera.py:51), so, once the bindings at main.py:41-56 no longer raise, the first movement key raises TypeError. | The camera main.py builds, with any translation vector | A list position that moves as the translation formula says | not executed | CameraModel.MainCameraCannotMove | CameraModel.TranslateCam |

=== FILE: basics.dfy ===
/** Values shared by every component: optional values, the Python exceptions
    the modelled code can raise, and Python's indexing and dictionary lookup. */
module Basics {

  datatype Option<+T> = None | Some(value: T)

  /** The built-in exceptions raised by the modelled code. */
  datatype PyError = KeyError | IndexError | FileNotFoundError | TypeError

  /** The result of a Python call: a value, or the exception it raises. */
  datatype Result<+T> = Ok(value: T) | Err(error: PyError) {
    predicate IsFailure() {
      Err?
    }

    function PropagateFailure<U>(): Result<U>
      requires Err?
    {
      Err(error)
    }

    function Extract(): T
      requires Ok?
    {
      value
    }
  }

  /** Python's `xs[i]` on a list: a negative index counts from the end,
      anything else outside the list raises IndexError. */
  function PyIndex<T>(xs: seq<T>, i: int): (r: Result<T>)
    ensures r.Ok? <==> -|xs| <= i < |xs|
    ensures r.Err? ==> r.error == IndexError
    ensures r.Ok? ==> r.value in xs
  {
    if 0 <= i < |xs| then Ok(xs[i])
    else if -|xs| <= i < 0 then Ok(xs[|xs| + i])
    else Err(IndexError)
  }

  /** Python's `d[k]` on a dictionary: a missing key raises KeyError. */
  function Lookup<K, V>(m: map<K, V>, k: K): (r: Result<V>)
    ensures r.Ok? <==> k in m
    ensures r.Ok? ==> r.value == m[k]
    ensures r.Err? ==> r.error == KeyError
  {
    if k in m then Ok(m[k]) else Err(KeyError)
  }
}

=== FILE: camera.dfy ===
/** The camera of camera.py: a position, a yaw (`x_rot`) and a pitch
    (`y_rot`) in whole degrees, and a zoom factor. Coordinates are real
    numbers. The cosine and sine of the yaw are parameters of a translation,
    so no trigonometry is evaluated. The position is a value triple. */
module CameraModel {
  import opened Basics

  datatype Vec3 = Vec3(x: real, y: real, z: real)

  datatype Camera = Camera(position: Vec3, xRot: int, yRot: int, fov: real)

  const Origin: Vec3 := Vec3(0.0, 0.0, 0.0)

  /** The zoom factor every camera starts with. */
  const InitialFov: real := 1.0

  function Negate(v: Vec3): Vec3 {
    Vec3(-v.x, -v.y, -v.z)
  }

  /** `Camera.__init__`. */
  function NewCamera(position: Vec3, xRot: int, yRot: int): (cam: Camera)
    ensures cam.position == position && cam.xRot == xRot && cam.yRot == yRot
    ensures cam.fov == InitialFov
  {
    Camera(position, xRot, yRot, InitialFov)
  }

  /** `Camera()` with every default: at the origin, unrotated. */
  function DefaultCamera(): (cam: Camera)
    ensures cam.position == Origin && cam.xRot == 0 && cam.yRot == 0 && cam.fov == 1.0
  {
    NewCamera(Origin, 0, 0)
  }

  /** `rotate_cam`: add to yaw and pitch; nothing else changes. */
  function RotateCam(cam: Camera, dx: int, dy: int): (r: Camera)
    ensures r.xRot - cam.xRot == dx && r.yRot - cam.yRot == dy
    ensures r.position == cam.position && r.fov == cam.fov
  {
    cam.(xRot := cam.xRot + dx, yRot := cam.yRot + dy)
  }

  /** `translate_cam` with `c` and `s` the cosine and sine of the yaw. The
      vector is in camera axes (right, up, forward). The five in-place
      updates are applied in the source's order. */
  function TranslateCam(cam: Camera, v: Vec3, c: real, s: real): (r: Camera)
    ensures r.xRot == cam.xRot && r.yRot == cam.yRot && r.fov == cam.fov
    ensures r.position.y == cam.position.y - v.y
    ensures r.position.x - cam.position.x == v.x * c + v.z * s
    ensures r.position.z - cam.position.z == -v.x * s + v.z * c
  {
    var p := cam.position;
    var x1 := p.x + v.x * c;
    var z1 := p.z - v.x * s;
    var y1 := p.y - v.y;
    var x2 := x1 + v.z * s;
    var z2 := z1 + v.z * c;
    cam.(position := Vec3(x2, y1, z2))
  }

  /** Rotations compose by adding, and the opposite rotation undoes one. */
  lemma RotateComposes(cam: Camera, dx: int, dy: int, dx': int, dy': int)
    ensures RotateCam(RotateCam(cam, dx, dy), dx', dy') == RotateCam(cam, dx + dx', dy + dy')
    ensures RotateCam(RotateCam(cam, dx, dy), -dx, -dy) == cam
  {
  }

  /** Moving by the opposite vector, at the same yaw, returns the camera to
      where it was. */
  lemma TranslateInverse(cam: Camera, v: Vec3, c: real, s: real)
    ensures TranslateCam(TranslateCam(cam, v, c, s), Negate(v), c, s) == cam
  {
  }

  /** With the yaw at zero the vector is applied in world axes, its vertical
      component downwards; the zero vector does not move the camera. */
  lemma TranslateUnrotated(cam: Camera, v: Vec3)
    ensures TranslateCam(cam, v, 1.0, 0.0).position ==
              Vec3(cam.position.x + v.x, cam.position.y - v.y, cam.position.z + v.z)
    ensures forall c: real, s: real :: TranslateCam(cam, Origin, c, s) == cam
  {
  }

  /** The pitch plays no part in a translation. */
  lemma TranslateIgnoresPitch(cam: Camera, v: Vec3, c: real, s: real, pitch: int)
    ensures TranslateCam(cam.(yRot := pitch), v, c, s).position == TranslateCam(cam, v, c, s).position
  {
  }

  /** For a true cosine/sine pair the horizontal move is a rotation of the
      horizontal part of the vector: its length is kept. */
  lemma TranslateKeepsHorizontalLength(cam: Camera, v: Vec3, c: real, s: real)
    requires c * c + s * s == 1.0
    ensures var d := TranslateCam(cam, v, c, s).position;
      var dx := d.x - cam.position.x;
      var dz := d.z - cam.position.z;
      dx * dx + dz * dz == v.x * v.x + v.z * v.z
  {
    var dx := v.x * c + v.z * s;
    var dz := -v.x * s + v.z * c;
    calc {
      dx * dx + dz * dz;
      v.x * v.x * (c * c + s * s) + v.z * v.z * (s * s + c * c);
      v.x * v.x + v.z * v.z;
    }
  }

  // ---------------------------------------------------------------------------
  // The position as the source stores it

  /** The position object: a list can be updated in place, a tuple cannot. */
  datatype StoredPosition = ListPosition(v: Vec3) | TuplePosition(v: Vec3)

  datatype StoredCamera = StoredCamera(position: StoredPosition, xRot: int, yRot: int, fov: real)

  /** `translate_cam` on the stored position: the first in-place update of a
      tuple raises TypeError, and nothing has moved. */
  function TranslateStored(cam: StoredCamera, v: Vec3, c: real, s: real): (r: Result<StoredCamera>)
    ensures r.Ok? <==> cam.position.ListPosition?
    ensures r.Err? ==> r.error == TypeError
    ensures r.Ok? ==> r.value.position.ListPosition?
    ensures r.Ok? ==> r.value.xRot == cam.xRot && r.value.yRot == cam.yRot && r.value.fov == cam.fov
    ensures r.Ok? ==>
              r.value.position.v == TranslateCam(Camera(cam.position.v, cam.xRot, cam.yRot, cam.fov), v, c, s).position
  {
    match cam.position
    case TuplePosition(_) => Err(TypeError)
    case ListPosition(p) =>
      var moved := TranslateCam(Camera(p, cam.xRot, cam.yRot, cam.fov), v, c, s);
      Ok(cam.(position := ListPosition(moved.position)))
  }

  /** The camera main.py builds, with the position given as a tuple. */
  const MainCamera: StoredCamera := StoredCamera(TuplePosition(Vec3(0.0, 0.0, -2.0)), 0, 0, InitialFov)

  /** Every movement key would make main.py's camera raise TypeError. */
  lemma MainCameraCannotMove(v: Vec3, c: real, s: real)
    ensures TranslateStored(MainCamera, v, c, s) == Err(TypeError)
  {
  }
}

=== FILE: controls.dfy ===
/** The per-frame rotation rule of main.py. Each held rotation action turns
    the camera by three degrees. The yaw wraps at the ends of [0, 360].
    rot_down moves the pitch only while it is above -90, rot_up only while it
    is below 90. */
module Controls {
  import opened CameraModel

  /** The actions main.py binds. Only the rotations are modelled here. */
  datatype Action =
    | Forward | Backward | Left | Right | Down | Up
    | RotRight | RotLeft | RotUp | RotDown
    | ZoomIn | ZoomOut

  /** Degrees turned per frame. */
  const RotStep: int := 3
  const FullTurn: int := 360
  const PitchLimit: int := 90

  const YawActions: set<Action> := {RotLeft, RotRight}
  const PitchActions: set<Action> := {RotDown, RotUp}

  /** The orientation invariant the frame rule keeps: yaw in [0, 360], pitch
      in [-90, 90], both whole multiples of the step. */
  predicate OrientationOk(cam: Camera) {
    && 0 <= cam.xRot <= FullTurn && cam.xRot % RotStep == 0
    && -PitchLimit <= cam.yRot <= PitchLimit && cam.yRot % RotStep == 0
  }

  /** rot_left: three degrees left; a yaw at or below 0 wraps to 360. */
  function TurnLeft(cam: Camera): (r: Camera)
    ensures r.position == cam.position && r.fov == cam.fov && r.yRot == cam.yRot
    ensures 0 <= cam.xRot <= FullTurn ==> 0 < r.xRot <= FullTurn
    ensures cam.xRot % RotStep == 0 ==> r.xRot % RotStep == 0
    ensures cam.xRot > RotStep ==> r.xRot == cam.xRot - RotStep
    ensures cam.xRot <= RotStep ==> r.xRot == FullTurn
  {
    var t := RotateCam(cam, -RotStep, 0);
    if t.xRot <= 0 then t.(xRot := FullTurn) else t
  }

  /** rot_right: three degrees right; a yaw at or above 360 wraps to 0. */
  function TurnRight(cam: Camera): (r: Camera)
    ensures r.position == cam.position && r.fov == cam.fov && r.yRot == cam.yRot
    ensures 0 <= cam.xRot <= FullTurn ==> 0 <= r.xRot < FullTurn
    ensures cam.xRot % RotStep == 0 ==> r.xRot % RotStep == 0
    ensures cam.xRot < FullTurn - RotStep ==> r.xRot == cam.xRot + RotStep
    ensures cam.xRot >= FullTurn - RotStep ==> r.xRot == 0
  {
    var t := RotateCam(cam, RotStep, 0);
    if t.xRot >= FullTurn then t.(xRot := 0) else t
  }

  /** rot_down: three degrees down, only while the pitch is above -90. */
  function TiltDown(cam: Camera): (r: Camera)
    ensures r.position == cam.position && r.fov == cam.fov && r.xRot == cam.xRot
    ensures -PitchLimit <= cam.yRot && cam.yRot % RotStep == 0 ==> -PitchLimit <= r.yRot
    ensures r.yRot <= cam.yRot && (cam.yRot % RotStep == 0 ==> r.yRot % RotStep == 0)
    ensures cam.yRot > -PitchLimit ==> r.yRot == cam.yRot - RotStep
    ensures cam.yRot <= -PitchLimit ==> r == cam
  {
    if cam.yRot > -PitchLimit then RotateCam(cam, 0, -RotStep) else cam
  }

  /** rot_up: three degrees up, only while the pitch is below 90. */
  function TiltUp(cam: Camera): (r: Camera)
    ensures r.position == cam.position && r.fov == cam.fov && r.xRot == cam.xRot
    ensures cam.yRot <= PitchLimit && cam.yRot % RotStep == 0 ==> r.yRot <= PitchLimit
    ensures r.yRot >= cam.yRot && (cam.yRot % RotStep == 0 ==> r.yRot % RotStep == 0)
    ensures cam.yRot < PitchLimit ==> r.yRot == cam.yRot + RotStep
    ensures cam.yRot >= PitchLimit ==> r == cam
  {
    if cam.yRot < PitchLimit then RotateCam(cam, 0, RotStep) else cam
  }

  /** The yaw half of a frame: rot_left, then rot_right. */
  function YawStep(cam: Camera, pressed: set<Action>): (r: Camera)
    ensures r.position == cam.position && r.fov == cam.fov && r.yRot == cam.yRot
    ensures 0 <= cam.xRot <= FullTurn ==> 0 <= r.xRot <= FullTurn
    ensures cam.xRot % RotStep == 0 ==> r.xRot % RotStep == 0
    ensures RotLeft in pressed && RotRight !in pressed ==> r == TurnLeft(cam)
    ensures RotRight in pressed && RotLeft !in pressed ==> r == TurnRight(cam)
    ensures RotLeft !in pressed && RotRight !in pressed ==> r == cam
    ensures YawActions <= pressed ==> r.xRot == (if RotStep < cam.xRot < FullTurn then cam.xRot else 0)
  {
    var c1 := if RotLeft in pressed then TurnLeft(cam) else cam;
    if RotRight in pressed then TurnRight(c1) else c1
  }

  /** The pitch half of a frame: rot_down, then rot_up. */
  function PitchStep(cam: Camera, pressed: set<Action>): (r: Camera)
    ensures r.position == cam.position && r.fov == cam.fov && r.xRot == cam.xRot
    ensures -PitchLimit <= cam.yRot <= PitchLimit && cam.yRot % RotStep == 0 ==>
              -PitchLimit <= r.yRot <= PitchLimit && r.yRot % RotStep == 0
    ensures RotDown in pressed && RotUp !in pressed ==> r == TiltDown(cam)
    ensures RotUp in pressed && RotDown !in pressed ==> r == TiltUp(cam)
    ensures RotDown !in pressed && RotUp !in pressed ==> r == cam
    ensures PitchActions <= pressed && -PitchLimit < cam.yRot <= PitchLimit ==> r.yRot == cam.yRot
    ensures PitchActions <= pressed && cam.yRot == -PitchLimit ==> r.yRot == -PitchLimit + RotStep
  {
    var c1 := if RotDown in pressed then TiltDown(cam) else cam;
    if RotUp in pressed then TiltUp(c1) else c1
  }

  /** The rotation part of one frame: rot_left, rot_right, rot_down, rot_up,
      in that order. */
  function FrameRotate(cam: Camera, pressed: set<Action>): (r: Camera)
    ensures r.position == cam.position && r.fov == cam.fov
    ensures 0 <= cam.xRot <= FullTurn ==> 0 <= r.xRot <= FullTurn
    ensures OrientationOk(cam) ==> OrientationOk(r)
    ensures pressed * (YawActions + PitchActions) == {} ==> r == cam
    ensures r.xRot == YawStep(cam, pressed).xRot && r.yRot == PitchStep(cam, pressed).yRot
  {
    PitchStep(YawStep(cam, pressed), pressed)
  }

  /** Away from the wrap points, rot_right undoes rot_left and rot_left undoes
      rot_right; strictly inside the pitch range, rot_up undoes rot_down and
      rot_down undoes rot_up. */
  lemma StepsUndo(cam: Camera)
    ensures RotStep < cam.xRot < FullTurn ==> TurnRight(TurnLeft(cam)) == cam
    ensures 0 < cam.xRot < FullTurn - RotStep ==> TurnLeft(TurnRight(cam)) == cam
    ensures -PitchLimit < cam.yRot < PitchLimit - RotStep ==> TiltDown(TiltUp(cam)) == cam
    ensures -PitchLimit + RotStep < cam.yRot < PitchLimit ==> TiltUp(TiltDown(cam)) == cam
  {
  }

  /** Turning left alone lands in (0, 360]; turning right alone in [0, 360). */
  lemma SingleTurnRanges(cam: Camera, pressed: set<Action>)
    requires 0 <= cam.xRot <= FullTurn
    ensures RotLeft in pressed && RotRight !in pressed ==> 0 < FrameRotate(cam, pressed).xRot <= FullTurn
    ensures RotRight in pressed && RotLeft !in pressed ==> 0 <= FrameRotate(cam, pressed).xRot < FullTurn
  {
  }

  /** Yaw actions never change the pitch, and pitch actions never change the yaw. */
  lemma AxesIndependent(cam: Camera, pressed: set<Action>)
    ensures FrameRotate(cam, pressed).yRot == FrameRotate(cam, pressed - YawActions).yRot
    ensures FrameRotate(cam, pressed).xRot == FrameRotate(cam, pressed - PitchActions).xRot
  {
  }

  /** The pitch invariant needs the multiple of three: from -89, rot_down
      steps past the limit. */
  lemma PitchOffGridEscapes(cam: Camera)
    requires cam.yRot == -89
    ensures FrameRotate(cam, {RotDown}).yRot == -92
  {
  }

  /** The camera after a run of frames, one set of held actions per frame. */
  function RunFrames(cam: Camera, frames: seq<set<Action>>): Camera
    decreases |frames|
  {
    if |frames| == 0 then cam else FrameRotate(RunFrames(cam, frames[..|frames| - 1]), frames[|frames| - 1])
  }

  /** From main.py's unrotated start, every frame sequence keeps the yaw in
      [0, 360] and the pitch in [-90, 90], both on the three-degree grid. */
  lemma {:induction false} OrientationReachable(position: Vec3, frames: seq<set<Action>>)
    ensures OrientationOk(RunFrames(NewCamera(position, 0, 0), frames))
    ensures RunFrames(NewCamera(position, 0, 0), frames).position == position
    decreases |frames|
  {
    if |frames| > 0 {
      OrientationReachable(position, frames[..|frames| - 1]);
    }
  }
}

=== FILE: events.dfy ===
/** The input state machine of event_checker.py. An alias table maps action
    names to key codes, a state table maps key codes to "held down". One call
    of `check_key_press` consumes the frame's event list, which the model
    takes as a parameter instead of polling pygame. */
module Events {
  import opened Basics

  /** pygame's QUIT event type. `check_key_press` also files it in the state
      table, so it shares the key-code space with the keyboard. */
  const QUIT: int := 256

  /** The alias bound to QUIT by default. */
  const QuitAlias: string := "quit"

  /** The events `check_key_press` distinguishes; every other event type is `Other`. */
  datatype Event = Quit | KeyDown(key: int) | KeyUp(key: int) | Other

  datatype EventChecker = EventChecker(aliases: map<string, int>, states: map<int, bool>)

  /** `EventChecker.__init__`: the default QUIT binding merged with `events`
      (a binding in `events` wins), and every bound key released. */
  function New(events: map<string, int>): (ec: EventChecker)
    ensures ec.aliases.Keys == events.Keys + {QuitAlias}
    ensures forall a :: a in events ==> ec.aliases[a] == events[a]
    ensures QuitAlias !in events ==> ec.aliases[QuitAlias] == QUIT
    ensures ec.states.Keys == ec.aliases.Values
    ensures forall a :: a in ec.aliases ==> GetState(ec, a) == Ok(false)
  {
    var aliases := map[QuitAlias := QUIT] + events;
    EventChecker(aliases, map k | k in aliases.Values :: false)
  }

  /** `register_event`: bind `alias` to `key` and mark `key` released. The
      state of the key `alias` was bound to before stays in the table. */
  function RegisterEvent(ec: EventChecker, alias: string, key: int): (r: EventChecker)
    ensures r.aliases.Keys == ec.aliases.Keys + {alias}
    ensures r.aliases[alias] == key && GetState(r, alias) == Ok(false)
    ensures forall a :: a in ec.aliases && a != alias ==> r.aliases[a] == ec.aliases[a]
    ensures r.states.Keys == ec.states.Keys + {key}
    ensures forall k :: k in ec.states && k != key ==> r.states[k] == ec.states[k]
  {
    EventChecker(ec.aliases[alias := key], ec.states[key := false])
  }

  /** `remove_event`: delete the state of the alias's key, then the alias.
      An unbound alias, or a key whose state is already gone, raises KeyError
      before anything is deleted. */
  function RemoveEvent(ec: EventChecker, alias: string): (r: Result<EventChecker>)
    ensures r.Ok? <==> alias in ec.aliases && ec.aliases[alias] in ec.states
    ensures r.Err? ==> r.error == KeyError
    ensures r.Ok? ==> r.value.aliases.Keys == ec.aliases.Keys - {alias}
    ensures r.Ok? ==> r.value.states.Keys == ec.states.Keys - {ec.aliases[alias]}
    ensures r.Ok? ==> forall a :: a in r.value.aliases ==> r.value.aliases[a] == ec.aliases[a]
    ensures r.Ok? ==> forall k :: k in r.value.states ==> r.value.states[k] == ec.states[k]
  {
    var key :- Lookup(ec.aliases, alias);
    var _ :- Lookup(ec.states, key);
    Ok(EventChecker(ec.aliases - {alias}, ec.states - {key}))
  }

  /** `get_state`: the state of the key an alias is bound to; KeyError when
      the alias is unbound or its key has no state. */
  function GetState(ec: EventChecker, alias: string): (r: Result<bool>)
    ensures r.Ok? <==> alias in ec.aliases && ec.aliases[alias] in ec.states
    ensures r.Ok? ==> r.value == ec.states[ec.aliases[alias]]
    ensures r.Err? ==> r.error == KeyError
  {
    var key :- Lookup(ec.aliases, alias);
    Lookup(ec.states, key)
  }

  /** The effect of one event on the state table (one turn of the loop in
      `check_key_press`): QUIT is always written, a key only when it has a state. */
  function ApplyEvent(states: map<int, bool>, e: Event): map<int, bool> {
    match e
    case Quit => states[QUIT := true]
    case KeyDown(k) => if k in states then states[k := true] else states
    case KeyUp(k) => if k in states then states[k := false] else states
    case Other => states
  }

  /** The state table after the events, applied in order. Only a QUIT event
      can add an entry. */
  function RunEvents(states: map<int, bool>, events: seq<Event>): (r: map<int, bool>)
    ensures r.Keys == states.Keys + (if Quit in events then {QUIT} else {})
    decreases |events|
  {
    if |events| == 0 then states
    else
      var last := |events| - 1;
      assert events == events[..last] + [events[last]];
      ApplyEvent(RunEvents(states, events[..last]), events[last])
  }

  /** `check_key_press` over the frame's event list; the alias table is untouched. */
  function CheckKeyPress(ec: EventChecker, events: seq<Event>): (r: EventChecker)
    ensures r.aliases == ec.aliases
    ensures r.states.Keys == ec.states.Keys + (if Quit in events then {QUIT} else {})
  {
    ec.(states := RunEvents(ec.states, events))
  }

  /** The value an event would write for key `k`, if it speaks about `k` at all. */
  function Touch(e: Event, k: int): Option<bool> {
    match e
    case Quit => if k == QUIT then Some(true) else None
    case KeyDown(k') => if k' == k then Some(true) else None
    case KeyUp(k') => if k' == k then Some(false) else None
    case Other => None
  }

  /** The value written for `k` by the last event that speaks about it. */
  function LastTouch(events: seq<Event>, k: int): Option<bool>
    decreases |events|
  {
    if |events| == 0 then None
    else
      var last := |events| - 1;
      match Touch(events[last], k)
      case Some(b) => Some(b)
      case None => LastTouch(events[..last], k)
  }

  /** The last event about a key decides its state; with no such event the
      key keeps the state it had. */
  lemma {:induction false} LastEventDecides(states: map<int, bool>, events: seq<Event>, k: int)
    requires k in RunEvents(states, events)
    ensures LastTouch(events, k).Some? ==> RunEvents(states, events)[k] == LastTouch(events, k).value
    ensures LastTouch(events, k).None? ==> k in states && RunEvents(states, events)[k] == states[k]
    decreases |events|
  {
    if |events| > 0 {
      var last := |events| - 1;
      var before := RunEvents(states, events[..last]);
      if Touch(events[last], k).None? {
        assert k in before;
        LastEventDecides(states, events[..last], k);
      }
    }
  }

  /** Without a KEYUP carrying QUIT's code, a QUIT event leaves the QUIT state
      set for good. */
  lemma {:induction false} QuitSticks(states: map<int, bool>, events: seq<Event>)
    requires Quit in events
    requires KeyUp(QUIT) !in events
    ensures QUIT in RunEvents(states, events) && RunEvents(states, events)[QUIT]
  {
    QuitLastTouch(events);
    LastEventDecides(states, events, QUIT);
  }

  lemma {:induction false} QuitLastTouch(events: seq<Event>)
    requires Quit in events
    requires KeyUp(QUIT) !in events
    ensures LastTouch(events, QUIT) == Some(true)
    decreases |events|
  {
    var last := |events| - 1;
    assert events == events[..last] + [events[last]];
    if Touch(events[last], QUIT).None? {
      assert events[last] != Quit;
      QuitLastTouch(events[..last]);
    }
  }

  /** Key events for keys without a state entry change nothing. */
  lemma {:induction false} UnboundKeysIgnored(states: map<int, bool>, events: seq<Event>)
    requires forall i :: 0 <= i < |events| ==> events[i] != Quit
    requires forall i :: 0 <= i < |events| && !events[i].Other? ==> events[i].key !in states
    ensures RunEvents(states, events) == states
    decreases |events|
  {
    if |events| > 0 {
      UnboundKeysIgnored(states, events[..|events| - 1]);
    }
  }

  /** Removing an alias takes the state of its key away from every other alias
      bound to the same key, so their `get_state` raises KeyError afterwards. */
  lemma RemoveOrphansSharedKey(ec: EventChecker, alias: string, other: string)
    requires RemoveEvent(ec, alias).Ok?
    requires other != alias && other in ec.aliases
    requires ec.aliases[other] == ec.aliases[alias]
    ensures GetState(RemoveEvent(ec, alias).value, alias) == Err(KeyError)
    ensures GetState(RemoveEvent(ec, alias).value, other) == Err(KeyError)
  {
  }

  /** A binding as main.py writes it: a single key code, or a set of them. */
  datatype Binding = OneKey(key: int) | KeySet(keys: set<int>)

  /** `EventChecker.__init__` on bindings that may be sets: building the state
      table hashes every bound value, and a set is unhashable (TypeError). */
  function NewWithBindings(events: map<string, Binding>): (r: Result<EventChecker>)
    ensures r.Ok? <==> forall a :: a in events ==> events[a].OneKey?
    ensures r.Err? ==> r.error == TypeError
    ensures r.Ok? ==> r.value.aliases.Keys == events.Keys + {QuitAlias}
    ensures r.Ok? ==> forall a :: a in events ==> r.value.aliases[a] == events[a].key
    ensures r.Ok? ==> QuitAlias !in events ==> r.value.aliases[QuitAlias] == QUIT
    ensures r.Ok? ==> forall a :: a in events ==> GetState(r.value, a) == Ok(false)
    ensures r.Ok? ==> r.value.states.Keys == r.value.aliases.Values
    ensures r.Ok? ==> forall k :: k in r.value.states ==> !r.value.states[k]
    ensures r.Ok? ==> r.value == New(map a | a in events :: events[a].key)
  {
    if exists a :: a in events && events[a].KeySet? then Err(TypeError)
    else Ok(New(map a | a in events :: events[a].key))
  }

  // pygame 2 key codes used by main.py.
  const K_a: int := 97
  const K_d: int := 100
  const K_f: int := 102
  const K_j: int := 106
  const K_m: int := 109
  const K_n: int := 110
  const K_s: int := 115
  const K_u: int := 117
  const K_v: int := 118
  const K_w: int := 119
  const K_x: int := 120
  const K_z: int := 122
  const K_RIGHT: int := 0x4000_004F
  const K_LEFT: int := 0x4000_0050
  const K_DOWN: int := 0x4000_0051
  const K_UP: int := 0x4000_0052

  /** The binding table main.py passes to the constructor. */
  const MainBindings: map<string, Binding> := map[
    "forward" := KeySet({K_w, K_UP}),
    "left" := KeySet({K_a, K_LEFT}),
    "backward" := KeySet({K_s, K_DOWN}),
    "right" := KeySet({K_d, K_RIGHT}),
    "down" := KeySet({K_z}),
    "up" := KeySet({K_x}),
    "rot_right" := KeySet({K_m}),
    "rot_left" := KeySet({K_n}),
    "rot_up" := KeySet({K_u}),
    "rot_down" := KeySet({K_j}),
    "zoom_in" := KeySet({K_f}),
    "zoom_out" := KeySet({K_v})
  ]

  /** main.py's bindings make the constructor raise TypeError. */
  lemma MainBindingsRejected()
    ensures NewWithBindings(MainBindings) == Err(TypeError)
  {
    assert "forward" in MainBindings && MainBindings["forward"].KeySet?;
  }
}

=== FILE: meshes.dfy ===
/** The cube-mesh merger of meshes.py (`merge_meshes`) and the shifted copies
    of the unit cube built from it. Triangles have integer vertices. Every
    triangle is identified with the axis-aligned planes it lies in by its
    plane key. The merger walks the meshes in order. Each mesh files, per plane, the
    vertices it adds. A mesh's lists replace the earlier lists for the same
    planes. A triangle is withheld when its three vertices are all on the list
    last filed for its plane. After each mesh the merger removes the already
    kept triangles that lie entirely on the points of that mesh's withheld
    triangles. */
module Meshes {
  import opened Basics

  datatype Point = Point(x: int, y: int, z: int)
  datatype Triangle = Triangle(p0: Point, p1: Point, p2: Point)
  type Mesh = seq<Triangle>

  /** Per axis, the coordinate all three vertices share, or None. */
  datatype PlaneKey = PlaneKey(x: Option<int>, y: Option<int>, z: Option<int>)

  /** Point lists filed under plane keys (`planes`, `badplanes`, `meshplanes`). */
  type PointLists = map<PlaneKey, seq<Point>>

  function Vertices(t: Triangle): seq<Point> {
    [t.p0, t.p1, t.p2]
  }

  function Shared(a: int, b: int, c: int): Option<int> {
    if a == b && b == c then Some(a) else None
  }

  /** The plane key of a triangle. */
  function PlaneOf(t: Triangle): (k: PlaneKey)
    ensures k.x.Some? <==> t.p0.x == t.p1.x && t.p1.x == t.p2.x
    ensures k.y.Some? <==> t.p0.y == t.p1.y && t.p1.y == t.p2.y
    ensures k.z.Some? <==> t.p0.z == t.p1.z && t.p1.z == t.p2.z
    ensures k.x.Some? ==> k.x.value == t.p0.x && k.x.value == t.p1.x && k.x.value == t.p2.x
    ensures k.y.Some? ==> k.y.value == t.p0.y && k.y.value == t.p1.y && k.y.value == t.p2.y
    ensures k.z.Some? ==> k.z.value == t.p0.z && k.z.value == t.p1.z && k.z.value == t.p2.z
  {
    PlaneKey(Shared(t.p0.x, t.p1.x, t.p2.x), Shared(t.p0.y, t.p1.y, t.p2.y), Shared(t.p0.z, t.p1.z, t.p2.z))
  }

  /** The plane key does not depend on the order of the vertices: a rotation
      and a swap generate every reordering. */
  lemma PlaneOfOrderFree(t: Triangle)
    ensures PlaneOf(Triangle(t.p1, t.p2, t.p0)) == PlaneOf(t)
    ensures PlaneOf(Triangle(t.p1, t.p0, t.p2)) == PlaneOf(t)
  {
  }

  /** All three vertices of `t` are on the list filed under its plane. */
  predicate AllRecorded(lists: PointLists, t: Triangle) {
    var k := PlaneOf(t);
    k in lists && t.p0 in lists[k] && t.p1 in lists[k] && t.p2 in lists[k]
  }

  // ---------------------------------------------------------------------------
  // The per-mesh pass over the triangles

  /** The inner loop over a triangle's points: the points missing from `known`
      (appended to the mesh's list) and how many were found (`counter`). */
  function Scan(pts: seq<Point>, known: seq<Point>): (r: (seq<Point>, nat))
    ensures |r.0| + r.1 == |pts|
    ensures forall x :: x in r.0 <==> x in pts && x !in known
    ensures r.1 == |pts| <==> forall i :: 0 <= i < |pts| ==> pts[i] in known
  {
    if |pts| == 0 then ([], 0)
    else
      var rest := Scan(pts[1..], known);
      if pts[0] !in known then ([pts[0]] + rest.0, rest.1) else (rest.0, rest.1 + 1)
  }

  /** Append each point not yet on the list (the `badplanes` loop). */
  function AddNew(p: seq<Point>, pts: seq<Point>): (r: seq<Point>)
    ensures forall x :: x in r <==> x in p || x in pts
    decreases |pts|
  {
    if |pts| == 0 then p
    else AddNew(if pts[0] in p then p else p + [pts[0]], pts[1..])
  }

  /** The state of one mesh's pass: `planes`, `badplanes`, and the triangles
      appended to `newmesh`. */
  datatype Pass = Pass(planes: PointLists, bad: PointLists, kept: Mesh)

  /** One turn of the loop over a mesh's triangles, against the lists
      `recorded` (`meshplanes`) left by the previous meshes. */
  function VisitTriangle(recorded: PointLists, st: Pass, t: Triangle): Pass {
    var k := PlaneOf(t);
    var planes := if k in st.planes then st.planes else st.planes[k := []];
    var scan := if k in recorded then Scan(Vertices(t), recorded[k]) else ([], 0);
    var planes' := if k in recorded then planes[k := planes[k] + scan.0] else planes;
    if scan.1 < 3 then
      Pass(planes', st.bad, st.kept + [t])
    else
      Pass(planes', st.bad[k := AddNew(if k in st.bad then st.bad[k] else [], Vertices(t))], st.kept)
  }

  /** The loop over all triangles of a mesh, in order. */
  function FirstPass(recorded: PointLists, mesh: Mesh): Pass
    decreases |mesh|
  {
    if |mesh| == 0 then Pass(map[], map[], [])
    else VisitTriangle(recorded, FirstPass(recorded, mesh[..|mesh| - 1]), mesh[|mesh| - 1])
  }

  // ---------------------------------------------------------------------------
  // Filters and the removal pass

  /** The triangles of `s` with all three vertices recorded for their plane, in order. */
  function Recorded(lists: PointLists, s: Mesh): (r: Mesh)
    ensures forall i :: 0 <= i < |r| ==> AllRecorded(lists, r[i])
  {
    if |s| == 0 then []
    else (if AllRecorded(lists, s[0]) then [s[0]] else []) + Recorded(lists, s[1..])
  }

  /** The triangles of `s` with some vertex not recorded for their plane, in order. */
  function Unrecorded(lists: PointLists, s: Mesh): (r: Mesh)
    ensures forall i :: 0 <= i < |r| ==> !AllRecorded(lists, r[i])
  {
    if |s| == 0 then []
    else (if AllRecorded(lists, s[0]) then [] else [s[0]]) + Unrecorded(lists, s[1..])
  }

  /** Python's `list.remove`: drop the first element equal to `t`. */
  function RemoveFirst(s: Mesh, t: Triangle): (r: Mesh)
    requires t in s
    ensures multiset(r) == multiset(s) - multiset{t}
  {
    assert s == [s[0]] + s[1..];
    if s[0] == t then s[1..] else [s[0]] + RemoveFirst(s[1..], t)
  }

  /** It is the first occurrence that goes, and the rest keep their order:
      for the index `i` of the first `t`, the result is `s` without position `i`. */
  lemma {:induction false} RemoveFirstAt(s: Mesh, t: Triangle, i: nat)
    requires i < |s| && s[i] == t && t !in s[..i]
    ensures RemoveFirst(s, t) == s[..i] + s[i + 1..]
    decreases i
  {
    if i > 0 {
      assert s[..i][0] == s[0];
      assert s[1..][..i - 1] == s[1..i];
      assert forall x :: x in s[1..i] ==> x in s[..i];
      RemoveFirstAt(s[1..], t, i - 1);
      ConsSplice(s, i - 1);
    }
  }

  /** Splicing out position `k` of the tail is splicing out `k + 1` of the whole. */
  lemma ConsSplice(s: Mesh, k: nat)
    requires k + 1 < |s|
    ensures [s[0]] + (s[1..][..k] + s[1..][k + 1..]) == s[..k + 1] + s[k + 2..]
  {
    assert s[1..][..k] == s[1..k + 1];
    assert s[1..][k + 1..] == s[k + 2..];
  }

  /** `for tri in badtris: newmesh.remove(tri)`; every removed triangle is present. */
  function RemoveEach(s: Mesh, bs: Mesh): Mesh
    requires multiset(bs) <= multiset(s)
    decreases |bs|
  {
    if |bs| == 0 then s
    else
      assert bs == [bs[0]] + bs[1..];
      assert bs[0] in multiset(s);
      RemoveEach(RemoveFirst(s, bs[0]), bs[1..])
  }

  // ---------------------------------------------------------------------------
  // The merger

  datatype MergeState = MergeState(newmesh: Mesh, meshplanes: PointLists)

  /** One turn of the loop over the meshes: the pass over the mesh, the
      removal of the kept triangles lying on its withheld points, and
      `meshplanes.update(planes)`. */
  function MergeStep(st: MergeState, mesh: Mesh): MergeState {
    var pass := FirstPass(st.meshplanes, mesh);
    var newmesh := st.newmesh + pass.kept;
    var badtris := Recorded(pass.bad, newmesh);
    RecordedMultiset(pass.bad, newmesh);
    MergeState(RemoveEach(newmesh, badtris), st.meshplanes + pass.planes)
  }

  function MergeAll(meshes: seq<Mesh>): MergeState
    decreases |meshes|
  {
    if |meshes| == 0 then MergeState([], map[])
    else MergeStep(MergeAll(meshes[..|meshes| - 1]), meshes[|meshes| - 1])
  }

  /** `merge_meshes`. */
  function MergeMeshes(meshes: seq<Mesh>): Mesh {
    MergeAll(meshes).newmesh
  }

  /** All input meshes, concatenated in order. */
  function Flatten(meshes: seq<Mesh>): Mesh
    decreases |meshes|
  {
    if |meshes| == 0 then [] else Flatten(meshes[..|meshes| - 1]) + meshes[|meshes| - 1]
  }

  /** `a` is `b` with some elements left out. */
  ghost predicate IsSubseq<T>(a: seq<T>, b: seq<T>)
    decreases |b|
  {
    |a| == 0 || (|b| > 0 && ((a[0] == b[0] && IsSubseq(a[1..], b[1..])) || IsSubseq(a, b[1..])))
  }

  // ---------------------------------------------------------------------------
  // Filter facts

  lemma {:induction false} RecordedMultiset(lists: PointLists, s: Mesh)
    ensures multiset(Recorded(lists, s)) <= multiset(s)
  {
    if |s| > 0 {
      RecordedMultiset(lists, s[1..]);
      assert s == [s[0]] + s[1..];
    }
  }

  lemma {:induction false} UnrecordedConcat(lists: PointLists, a: Mesh, b: Mesh)
    ensures Unrecorded(lists, a + b) == Unrecorded(lists, a) + Unrecorded(lists, b)
  {
    if |a| == 0 {
      assert a + b == b;
    } else {
      var ab := a + b;
      assert ab[0] == a[0] && ab[1..] == a[1..] + b;
      UnrecordedConcat(lists, a[1..], b);
    }
  }

  lemma {:induction false} NothingRecorded(lists: PointLists, s: Mesh)
    requires Recorded(lists, s) == []
    ensures Unrecorded(lists, s) == s
  {
    if |s| > 0 {
      NothingRecorded(lists, s[1..]);
      assert s == [s[0]] + s[1..];
    }
  }

  lemma {:induction false} RemoveFirstRecorded(lists: PointLists, s: Mesh, t: Triangle)
    requires t in s && AllRecorded(lists, t)
    ensures Unrecorded(lists, RemoveFirst(s, t)) == Unrecorded(lists, s)
    ensures multiset(Recorded(lists, RemoveFirst(s, t))) == multiset(Recorded(lists, s)) - multiset{t}
  {
    var h := s[0];
    assert s == [h] + s[1..];
    FiltersCons(lists, h, s[1..]);
    if h != t {
      var r := RemoveFirst(s[1..], t);
      RemoveFirstRecorded(lists, s[1..], t);
      assert RemoveFirst(s, t) == [h] + r;
      FiltersCons(lists, h, r);
    }
  }

  /** Both filters, one element at a time. */
  lemma FiltersCons(lists: PointLists, h: Triangle, tail: Mesh)
    ensures Unrecorded(lists, [h] + tail) == (if AllRecorded(lists, h) then [] else [h]) + Unrecorded(lists, tail)
    ensures Recorded(lists, [h] + tail) == (if AllRecorded(lists, h) then [h] else []) + Recorded(lists, tail)
  {
    assert ([h] + tail)[0] == h && ([h] + tail)[1..] == tail;
  }

  /** Removing, one `list.remove` at a time, triangles that make up exactly
      the recorded ones leaves exactly the unrecorded ones, in order. */
  lemma {:induction false} RemoveRecorded(lists: PointLists, s: Mesh, bs: Mesh)
    requires forall i :: 0 <= i < |bs| ==> AllRecorded(lists, bs[i])
    requires multiset(bs) == multiset(Recorded(lists, s))
    ensures multiset(bs) <= multiset(s)
    ensures RemoveEach(s, bs) == Unrecorded(lists, s)
    decreases |bs|
  {
    RecordedMultiset(lists, s);
    if |bs| == 0 {
      NothingRecorded(lists, s);
    } else {
      var b := bs[0];
      assert bs == [b] + bs[1..];
      assert b in multiset(Recorded(lists, s));
      var s' := RemoveFirst(s, b);
      RemoveFirstRecorded(lists, s, b);
      RemoveRecorded(lists, s', bs[1..]);
    }
  }

  /** The removal pass of `merge_meshes` keeps exactly the triangles that do
      not lie entirely on their plane's bad points. */
  lemma RemovalPassIsFilter(bad: PointLists, s: Mesh)
    ensures multiset(Recorded(bad, s)) <= multiset(s)
    ensures RemoveEach(s, Recorded(bad, s)) == Unrecorded(bad, s)
  {
    RemoveRecorded(bad, s, Recorded(bad, s));
  }

  // ---------------------------------------------------------------------------
  // What the per-mesh pass computes

  /** The pass keeps, in order, exactly the triangles not all of whose
      vertices were recorded for their plane by the previous meshes. */
  lemma {:induction false} FirstPassKeeps(recorded: PointLists, mesh: Mesh)
    ensures FirstPass(recorded, mesh).kept == Unrecorded(recorded, mesh)
    decreases |mesh|
  {
    if |mesh| > 0 {
      var n := |mesh| - 1;
      var t := mesh[n];
      FirstPassKeeps(recorded, mesh[..n]);
      assert mesh == mesh[..n] + [t];
      UnrecordedConcat(recorded, mesh[..n], [t]);
      if PlaneOf(t) in recorded {
        ScanFindsAll(recorded, t);
      }
    }
  }

  /** Some triangle of `mesh` on plane `k` is withheld against `recorded`. */
  ghost predicate WithheldOn(recorded: PointLists, mesh: Mesh, k: PlaneKey) {
    exists i :: 0 <= i < |mesh| && AllRecorded(recorded, mesh[i]) && PlaneOf(mesh[i]) == k
  }

  /** `x` is a vertex of a withheld triangle of `mesh` on plane `k`. */
  ghost predicate WithheldVertex(recorded: PointLists, mesh: Mesh, k: PlaneKey, x: Point) {
    exists i :: 0 <= i < |mesh| && AllRecorded(recorded, mesh[i]) && PlaneOf(mesh[i]) == k && x in Vertices(mesh[i])
  }

  /** Some triangle of `mesh` lies on plane `k`. */
  ghost predicate OnPlane(mesh: Mesh, k: PlaneKey) {
    exists i :: 0 <= i < |mesh| && PlaneOf(mesh[i]) == k
  }

  /** `x` is a vertex of a triangle of `mesh` on plane `k`. */
  ghost predicate VertexOnPlane(mesh: Mesh, k: PlaneKey, x: Point) {
    exists i :: 0 <= i < |mesh| && PlaneOf(mesh[i]) == k && x in Vertices(mesh[i])
  }

  lemma WitnessesExtend(recorded: PointLists, mesh: Mesh, k: PlaneKey, x: Point)
    requires |mesh| > 0
    ensures var n := |mesh| - 1; var t := mesh[n];
      && (WithheldOn(recorded, mesh, k) <==> WithheldOn(recorded, mesh[..n], k) || (AllRecorded(recorded, t) && PlaneOf(t) == k))
      && (WithheldVertex(recorded, mesh, k, x) <==> WithheldVertex(recorded, mesh[..n], k, x) || (AllRecorded(recorded, t) && PlaneOf(t) == k && x in Vertices(t)))
      && (OnPlane(mesh, k) <==> OnPlane(mesh[..n], k) || PlaneOf(t) == k)
      && (VertexOnPlane(mesh, k, x) <==> VertexOnPlane(mesh[..n], k, x) || (PlaneOf(t) == k && x in Vertices(t)))
  {
    var n := |mesh| - 1;
    assert forall i :: 0 <= i < n ==> mesh[..n][i] == mesh[i];
  }

  /** A triangle is withheld exactly when the scan of its points finds all three. */
  lemma ScanFindsAll(recorded: PointLists, t: Triangle)
    requires PlaneOf(t) in recorded
    ensures Scan(Vertices(t), recorded[PlaneOf(t)]).1 == 3 <==> AllRecorded(recorded, t)
  {
    var known := recorded[PlaneOf(t)];
    assert Vertices(t)[0] == t.p0 && Vertices(t)[1] == t.p1 && Vertices(t)[2] == t.p2;
  }

  /** One triangle's effect on the bad-point lists. */
  lemma VisitBad(recorded: PointLists, st: Pass, t: Triangle, k: PlaneKey, x: Point)
    ensures var bad := VisitTriangle(recorded, st, t).bad;
      && (k in bad <==> k in st.bad || (AllRecorded(recorded, t) && PlaneOf(t) == k))
      && (k in bad ==> (x in bad[k] <==> (k in st.bad && x in st.bad[k]) || (AllRecorded(recorded, t) && PlaneOf(t) == k && x in Vertices(t))))
  {
    if PlaneOf(t) in recorded {
      ScanFindsAll(recorded, t);
    }
  }

  /** One triangle's effect on the mesh's own point lists. */
  lemma VisitPlanes(recorded: PointLists, st: Pass, t: Triangle, k: PlaneKey, x: Point)
    ensures var planes := VisitTriangle(recorded, st, t).planes;
      && (k in planes <==> k in st.planes || PlaneOf(t) == k)
      && (k in planes ==> (x in planes[k] <==> (k in st.planes && x in st.planes[k]) || (PlaneOf(t) == k && k in recorded && x in Vertices(t) && x !in recorded[k])))
  {
  }

  /** A plane gets a bad-point list exactly when some triangle on it is
      withheld, and the list holds exactly the vertices of those triangles. */
  lemma {:induction false} FirstPassBad(recorded: PointLists, mesh: Mesh, k: PlaneKey, x: Point)
    ensures k in FirstPass(recorded, mesh).bad <==> WithheldOn(recorded, mesh, k)
    ensures k in FirstPass(recorded, mesh).bad ==>
              (x in FirstPass(recorded, mesh).bad[k] <==> WithheldVertex(recorded, mesh, k, x))
    decreases |mesh|
  {
    if |mesh| > 0 {
      var n := |mesh| - 1;
      FirstPassBad(recorded, mesh[..n], k, x);
      WitnessesExtend(recorded, mesh, k, x);
      VisitBad(recorded, FirstPass(recorded, mesh[..n]), mesh[n], k, x);
    }
  }

  /** Every plane of the mesh gets a list, and the list holds exactly the
      vertices of the mesh's triangles on that plane that the previous meshes
      had not recorded; a plane no previous mesh had gets an empty list. */
  lemma {:induction false} FirstPassPlanes(recorded: PointLists, mesh: Mesh, k: PlaneKey, x: Point)
    ensures k in FirstPass(recorded, mesh).planes <==> OnPlane(mesh, k)
    ensures k in FirstPass(recorded, mesh).planes ==>
              (x in FirstPass(recorded, mesh).planes[k] <==> k in recorded && x !in recorded[k] && VertexOnPlane(mesh, k, x))
    decreases |mesh|
  {
    if |mesh| > 0 {
      var n := |mesh| - 1;
      FirstPassPlanes(recorded, mesh[..n], k, x);
      WitnessesExtend(recorded, mesh, k, x);
      VisitPlanes(recorded, FirstPass(recorded, mesh[..n]), mesh[n], k, x);
    }
  }

  // ---------------------------------------------------------------------------
  // Subsequences

  lemma {:induction false} SubseqTrans<T>(a: seq<T>, b: seq<T>, c: seq<T>)
    requires IsSubseq(a, b) && IsSubseq(b, c)
    ensures IsSubseq(a, c)
    decreases |a| + |b| + |c|
  {
    if |a| > 0 {
      if IsSubseq(b, c[1..]) {
        SubseqTrans(a, b, c[1..]);
      } else if a[0] == b[0] && IsSubseq(a[1..], b[1..]) {
        SubseqTrans(a[1..], b[1..], c[1..]);
      } else {
        SubseqTrans(a, b[1..], c[1..]);
      }
    }
  }

  lemma {:induction false} SubseqPrepend<T>(v: seq<T>, a: seq<T>, b: seq<T>)
    requires IsSubseq(v, b)
    ensures IsSubseq(v, a + b)
    decreases |a|
  {
    if |a| == 0 {
      assert a + b == b;
    } else if |v| > 0 {
      assert (a + b)[1..] == a[1..] + b;
      SubseqPrepend(v, a[1..], b);
      assert IsSubseq(v, (a + b)[1..]);
    }
  }

  lemma {:induction false} SubseqConcat<T>(u: seq<T>, v: seq<T>, a: seq<T>, b: seq<T>)
    requires IsSubseq(u, a) && IsSubseq(v, b)
    ensures IsSubseq(u + v, a + b)
    decreases |a|
  {
    if |u| == 0 {
      assert u + v == v;
      SubseqPrepend(v, a, b);
    } else {
      assert (a + b)[1..] == a[1..] + b;
      if u[0] == a[0] && IsSubseq(u[1..], a[1..]) {
        assert (u + v)[1..] == u[1..] + v;
        SubseqConcat(u[1..], v, a[1..], b);
      } else {
        SubseqConcat(u, v, a[1..], b);
      }
    }
  }

  lemma {:induction false} UnrecordedSubseq(lists: PointLists, s: Mesh)
    ensures IsSubseq(Unrecorded(lists, s), s)
  {
    if |s| > 0 {
      UnrecordedSubseq(lists, s[1..]);
      var r := Unrecorded(lists, s[1..]);
      var u := Unrecorded(lists, s);
      if AllRecorded(lists, s[0]) {
        assert u == r;
      } else {
        assert u == [s[0]] + r;
        assert u[0] == s[0] && u[1..] == r;
      }
    }
  }

  // ---------------------------------------------------------------------------
  // Properties of the merger

  /** The merged mesh is the concatenation of the inputs with some triangles
      left out: the merger only appends in order and then removes. */
  lemma {:induction false} MergeIsSubsequence(meshes: seq<Mesh>)
    ensures IsSubseq(MergeMeshes(meshes), Flatten(meshes))
    decreases |meshes|
  {
    if |meshes| > 0 {
      var n := |meshes| - 1;
      MergeIsSubsequence(meshes[..n]);
      MergeStepSubseq(MergeAll(meshes[..n]), meshes[n], Flatten(meshes[..n]));
    }
  }

  /** One turn of the merger keeps the result a subsequence of the input seen so far. */
  lemma MergeStepSubseq(st: MergeState, mesh: Mesh, flat: Mesh)
    requires IsSubseq(st.newmesh, flat)
    ensures IsSubseq(MergeStep(st, mesh).newmesh, flat + mesh)
  {
    var pass := FirstPass(st.meshplanes, mesh);
    var newmesh := st.newmesh + pass.kept;
    FirstPassKeeps(st.meshplanes, mesh);
    UnrecordedSubseq(st.meshplanes, mesh);
    SubseqConcat(st.newmesh, pass.kept, flat, mesh);
    RemovalPassIsFilter(pass.bad, newmesh);
    assert MergeStep(st, mesh).newmesh == Unrecorded(pass.bad, newmesh);
    UnrecordedSubseq(pass.bad, newmesh);
    SubseqTrans(Unrecorded(pass.bad, newmesh), newmesh, flat + mesh);
  }

  /** When no triangle of the mesh is entirely recorded, the pass keeps the
      whole mesh and withholds nothing. */
  lemma NothingWithheld(recorded: PointLists, mesh: Mesh)
    requires forall i :: 0 <= i < |mesh| ==> !AllRecorded(recorded, mesh[i])
    ensures FirstPass(recorded, mesh).kept == mesh
    ensures FirstPass(recorded, mesh).bad == map[]
  {
    FirstPassKeeps(recorded, mesh);
    NoneRecordedKeepsAll(recorded, mesh);
    var bad := FirstPass(recorded, mesh).bad;
    forall k
      ensures k !in bad
    {
      FirstPassBad(recorded, mesh, k, Point(0, 0, 0));
    }
    assert bad.Keys == {};
  }

  lemma {:induction false} NoneRecordedKeepsAll(lists: PointLists, s: Mesh)
    requires forall i :: 0 <= i < |s| ==> !AllRecorded(lists, s[i])
    ensures Unrecorded(lists, s) == s
  {
    if |s| > 0 {
      NoneRecordedKeepsAll(lists, s[1..]);
      assert s == [s[0]] + s[1..];
    }
  }

  /** With nothing withheld, the removal pass removes nothing. */
  lemma NoBadPlanesRemoveNothing(s: Mesh)
    ensures Recorded(map[], s) == []
    ensures RemoveEach(s, []) == s
  {
    if |s| > 0 {
      NoBadPlanesRemoveNothing(s[1..]);
    }
  }

  /** Merging no meshes gives the empty mesh. */
  lemma MergeNone()
    ensures MergeMeshes([]) == []
  {
  }

  /** A single mesh comes back unchanged, and every plane of it is recorded
      with an empty list. */
  lemma MergeOne(mesh: Mesh)
    ensures MergeMeshes([mesh]) == mesh
    ensures forall k :: k in MergeAll([mesh]).meshplanes ==> MergeAll([mesh]).meshplanes[k] == []
  {
    assert [mesh][..0] == [];
    var pass := FirstPass(map[], mesh);
    NothingWithheld(map[], mesh);
    NoBadPlanesRemoveNothing(mesh);
    assert [] + pass.kept == mesh;
    assert MergeAll([mesh]) == MergeState(mesh, map[] + pass.planes);
    var planes := pass.planes;
    forall k | k in planes
      ensures planes[k] == []
    {
      if planes[k] != [] {
        FirstPassPlanes(map[], mesh, k, planes[k][0]);
      }
    }
  }

  /** Two meshes merge to their concatenation: the lists the first mesh
      records are empty, so no triangle of the second is withheld. */
  lemma MergeTwo(first: Mesh, second: Mesh)
    ensures MergeMeshes([first, second]) == first + second
  {
    var meshes := [first, second];
    assert meshes[..1] == [first];
    MergeOne(first);
    var st := MergeAll([first]);
    assert st.newmesh == first;
    var recorded := st.meshplanes;
    forall i | 0 <= i < |second|
      ensures !AllRecorded(recorded, second[i])
    {
      var k := PlaneOf(second[i]);
      if k in recorded {
        assert recorded[k] == [];
      }
    }
    NothingWithheld(recorded, second);
    var pass := FirstPass(recorded, second);
    NoBadPlanesRemoveNothing(first + second);
    assert MergeAll(meshes) == MergeStep(st, second);
    assert MergeStep(st, second).newmesh == RemoveEach(first + second, Recorded(map[], first + second));
  }

  // ---------------------------------------------------------------------------
  // One triangle merged three times

  lemma ScanNothingKnown(pts: seq<Point>)
    ensures Scan(pts, []).0 == pts
  {
    if |pts| > 0 {
      ScanNothingKnown(pts[1..]);
      assert pts == [pts[0]] + pts[1..];
    }
  }

  lemma FirstPassSingle(recorded: PointLists, t: Triangle)
    ensures FirstPass(recorded, [t]) == VisitTriangle(recorded, Pass(map[], map[], []), t)
  {
    assert [t][..0] == [];
    assert FirstPass(recorded, [t][..0]) == Pass(map[], map[], []);
  }

  lemma EmptyListCollects(recorded: PointLists, t: Triangle)
    requires PlaneOf(t) in recorded && recorded[PlaneOf(t)] == []
    ensures PlaneOf(t) in FirstPass(recorded, [t]).planes
    ensures FirstPass(recorded, [t]).planes[PlaneOf(t)] == Vertices(t)
  {
    FirstPassSingle(recorded, t);
    ScanNothingKnown(Vertices(t));
    assert [] + Vertices(t) == Vertices(t);
  }

  lemma FirstCopyRecordsEmpty(t: Triangle)
    ensures MergeAll([[t]]).newmesh == [t]
    ensures PlaneOf(t) in MergeAll([[t]]).meshplanes
    ensures MergeAll([[t]]).meshplanes[PlaneOf(t)] == []
  {
    MergeOne([t]);
    FirstPassPlanes(map[], [t], PlaneOf(t), t.p0);
    assert [[t]][..0] == [];
    assert MergeAll([[t]][..0]) == MergeState([], map[]);
    assert MergeAll([[t]]).meshplanes == map[] + FirstPass(map[], [t]).planes;
  }

  lemma SecondCopyRecords(t: Triangle)
    ensures MergeAll([[t], [t]]).newmesh == [t, t]
    ensures PlaneOf(t) in MergeAll([[t], [t]]).meshplanes
    ensures MergeAll([[t], [t]]).meshplanes[PlaneOf(t)] == Vertices(t)
  {
    MergeTwo([t], [t]);
    FirstCopyRecordsEmpty(t);
    var st1 := MergeAll([[t]]);
    EmptyListCollects(st1.meshplanes, t);
    assert [[t], [t]][..1] == [[t]];
    assert MergeAll([[t], [t]]).meshplanes == st1.meshplanes + FirstPass(st1.meshplanes, [t]).planes;
  }

  lemma ThirdCopyRemovesAll(st: MergeState, t: Triangle)
    requires st.newmesh == [t, t]
    requires PlaneOf(t) in st.meshplanes && st.meshplanes[PlaneOf(t)] == Vertices(t)
    ensures MergeStep(st, [t]).newmesh == []
  {
    var k := PlaneOf(t);
    var pass3 := FirstPass(st.meshplanes, [t]);
    assert AllRecorded(st.meshplanes, t);
    FirstPassKeeps(st.meshplanes, [t]);
    assert Unrecorded(st.meshplanes, [t]) == [];
    var empty := Pass(map[], map[], []);
    FirstPassSingle(st.meshplanes, t);
    VisitBad(st.meshplanes, empty, t, k, t.p0);
    VisitBad(st.meshplanes, empty, t, k, t.p1);
    VisitBad(st.meshplanes, empty, t, k, t.p2);
    assert AllRecorded(pass3.bad, t);
    assert st.newmesh + pass3.kept == [t, t];
    RemovalPassIsFilter(pass3.bad, [t, t]);
    assert [t, t][1..] == [t] && [t][1..] == [];
    assert Unrecorded(pass3.bad, [t]) == [];
    assert Unrecorded(pass3.bad, [t, t]) == [];
  }

  /** The dedup is not symmetric: a mesh merged three times vanishes. The
      second copy records the triangle's points, the third is withheld, and
      its bad points then remove both kept copies. */
  lemma ThreeCopiesVanish(t: Triangle)
    ensures MergeMeshes([[t], [t], [t]]) == []
  {
    var ms := [[t], [t], [t]];
    assert ms[..2] == [[t], [t]];
    SecondCopyRecords(t);
    ThirdCopyRemovesAll(MergeAll(ms[..2]), t);
  }

  // ---------------------------------------------------------------------------
  // The unit cube and its shifted copies

  /** The cube's edge length. */
  const S: int := 1

  /** The twelve triangles of the unit cube (`mesh`). */
  const CubeMesh: Mesh := [
    Triangle(Point(0, 0, 0), Point(0, S, 0), Point(S, S, 0)),
    Triangle(Point(0, 0, 0), Point(S, S, 0), Point(S, 0, 0)),
    Triangle(Point(S, 0, 0), Point(S, S, 0), Point(S, S, S)),
    Triangle(Point(S, 0, 0), Point(S, S, S), Point(S, 0, S)),
    Triangle(Point(S, 0, S), Point(S, S, S), Point(0, S, S)),
    Triangle(Point(S, 0, S), Point(0, S, S), Point(0, 0, S)),
    Triangle(Point(0, 0, S), Point(0, S, S), Point(0, S, 0)),
    Triangle(Point(0, 0, S), Point(0, S, 0), Point(0, 0, 0)),
    Triangle(Point(S, S, 0), Point(0, S, 0), Point(0, S, S)),
    Triangle(Point(S, S, 0), Point(0, S, S), Point(S, S, S)),
    Triangle(Point(S, 0, S), Point(0, 0, S), Point(0, 0, 0)),
    Triangle(Point(S, 0, S), Point(0, 0, 0), Point(S, 0, 0))
  ]

  function AddPoint(p: Point, d: Point): Point {
    Point(p.x + d.x, p.y + d.y, p.z + d.z)
  }

  function Negate(d: Point): Point {
    Point(-d.x, -d.y, -d.z)
  }

  function ShiftTriangle(t: Triangle, d: Point): Triangle {
    Triangle(AddPoint(t.p0, d), AddPoint(t.p1, d), AddPoint(t.p2, d))
  }

  /** `[[[j[0]+dx, j[1]+dy, j[2]+dz] for j in i] for i in mesh]`. */
  function ShiftMesh(mesh: Mesh, d: Point): (r: Mesh)
    ensures |r| == |mesh|
    ensures forall i, j :: 0 <= i < |mesh| && 0 <= j < 3 ==> Vertices(r[i])[j] == AddPoint(Vertices(mesh[i])[j], d)
  {
    seq(|mesh|, i requires 0 <= i < |mesh| => ShiftTriangle(mesh[i], d))
  }

  /** Shifting back by the opposite offset restores the mesh. */
  lemma ShiftMeshInverse(mesh: Mesh, d: Point)
    ensures ShiftMesh(ShiftMesh(mesh, d), Negate(d)) == mesh
  {
    var r := ShiftMesh(ShiftMesh(mesh, d), Negate(d));
    forall i | 0 <= i < |mesh|
      ensures r[i] == mesh[i]
    {
      assert Vertices(r[i])[0] == mesh[i].p0;
      assert Vertices(r[i])[1] == mesh[i].p1;
      assert Vertices(r[i])[2] == mesh[i].p2;
    }
  }

  function ShiftKey(o: Option<int>, d: int): Option<int> {
    if o.Some? then Some(o.value + d) else None
  }

  /** A shifted triangle lies on the shifted plane. */
  lemma ShiftMovesPlane(t: Triangle, d: Point)
    ensures PlaneOf(ShiftTriangle(t, d)) == PlaneKey(ShiftKey(PlaneOf(t).x, d.x), ShiftKey(PlaneOf(t).y, d.y), ShiftKey(PlaneOf(t).z, d.z))
  {
  }

  /** The offsets of the copies `mesh1a` … `mesh6a`, in order. */
  const CopyOffsets: seq<Point> := [
    Point(0, S, 0), Point(S, 0, 0), Point(S, S, 0), Point(-S, 0, 0), Point(-S, S, 0),
    Point(S + S, 0, 0), Point(S + S, S, 0), Point(-S - S, 0, 0), Point(-S - S, S, 0),
    Point(S + S + S, S, 0), Point(S + S + S, 0, 0)
  ]

  /** The shifted copies of the cube. */
  function CubeCopies(): (r: seq<Mesh>)
    ensures |r| == |CopyOffsets|
    ensures forall c :: 0 <= c < |r| ==> |r[c]| == |CubeMesh|
    ensures forall c, i, j :: 0 <= c < |r| && 0 <= i < |CubeMesh| && 0 <= j < 3 ==>
              Vertices(r[c][i])[j] == AddPoint(Vertices(CubeMesh[i])[j], CopyOffsets[c])
  {
    seq(|CopyOffsets|, c requires 0 <= c < |CopyOffsets| => ShiftMesh(CubeMesh, CopyOffsets[c]))
  }
}

=== FILE: obj_winding.dfy ===
/** The OBJ winding flipper of utils.py (`ccwify_obj_file`). It checks the path,
    names the output file, and rewrites every face line with its vertex
    references in reverse order; every other line is copied. Reading and
    writing the files is outside the model: the input file is its list of
    lines, the output file the list of chunks written, in order. */
module ObjWinding {
  import opened Basics

  const ObjExtension: string := ".obj"
  const CcwSuffix: string := "_ccw.obj"
  const FacePrefix: string := "f "

  /** Python's `str.isspace`, the separators of `str.split()` with no argument. */
  predicate IsSpace(c: char) {
    || ('\t' <= c <= '\r')
    || ('\U{1C}' <= c <= ' ')
    || c == '\U{85}' || c == '\U{A0}' || c == '\U{1680}'
    || ('\U{2000}' <= c <= '\U{200A}')
    || c == '\U{2028}' || c == '\U{2029}' || c == '\U{202F}' || c == '\U{205F}' || c == '\U{3000}'
  }

  /** A piece `str.split()` can return: non-empty, without whitespace. */
  predicate IsToken(t: string) {
    |t| > 0 && forall i :: 0 <= i < |t| ==> !IsSpace(t[i])
  }

  predicate AllSpace(s: string) {
    forall i :: 0 <= i < |s| ==> IsSpace(s[i])
  }

  /** Length of the longest whitespace-free prefix. */
  function TokenLength(s: string): (n: nat)
    ensures n <= |s|
    ensures forall i :: 0 <= i < n ==> !IsSpace(s[i])
    ensures n == |s| || IsSpace(s[n])
  {
    if |s| == 0 || IsSpace(s[0]) then 0 else 1 + TokenLength(s[1..])
  }

  /** Python's `s.split()`: the maximal whitespace-free runs, in order. */
  function Split(s: string): (r: seq<string>)
    ensures forall i :: 0 <= i < |r| ==> IsToken(r[i])
    decreases |s|
  {
    if |s| == 0 then []
    else if IsSpace(s[0]) then Split(s[1..])
    else
      var n := TokenLength(s);
      [s[..n]] + Split(s[n..])
  }

  /** Python's `' '.join(ts)`. */
  function Join(ts: seq<string>): string {
    if |ts| == 0 then ""
    else if |ts| == 1 then ts[0]
    else ts[0] + " " + Join(ts[1..])
  }

  function Reverse<T>(s: seq<T>): (r: seq<T>)
    ensures |r| == |s|
    ensures forall i :: 0 <= i < |s| ==> r[i] == s[|s| - 1 - i]
  {
    if |s| == 0 then [] else Reverse(s[1..]) + [s[0]]
  }

  /** `line[:2] == 'f '`. */
  predicate IsFaceLine(line: string) {
    |line| >= 2 && line[..2] == FacePrefix
  }

  /** `line.split()[1:]`: the vertex references of a face line. */
  function FaceTokens(line: string): seq<string> {
    var ts := Split(line);
    if |ts| == 0 then [] else ts[1..]
  }

  /** The rewrite of one line: a face line gets its vertex references
      reversed, joined by single spaces and ended by a newline. */
  function FlipLine(line: string): string {
    if IsFaceLine(line) then FacePrefix + Join(Reverse(FaceTokens(line))) + "\n" else line
  }

  /** `filepath[-4:] != ".obj"`: a path shorter than four characters is its own
      last-four slice and never matches. */
  function CheckPath(path: string): (r: Result<string>)
    ensures r.Ok? <==> |path| >= 4 && path[|path| - 4..] == ObjExtension
    ensures r.Err? ==> r.error == FileNotFoundError
    ensures r.Ok? ==> r.value + ObjExtension == path
  {
    var last4 := if |path| >= 4 then path[|path| - 4..] else path;
    if last4 != ObjExtension then Err(FileNotFoundError) else Ok(path[..|path| - 4])
  }

  /** `filepath[:-4] + "_ccw.obj"`, for a path that passed the check. */
  function OutputPath(path: string): (out: string)
    requires CheckPath(path).Ok?
    ensures |out| == |path| + 4
    ensures out[..|path| - 4] == path[..|path| - 4]
    ensures out[|path| - 4..] == CcwSuffix
    ensures CheckPath(out).Ok?
  {
    path[..|path| - 4] + CcwSuffix
  }

  /** The loop of `ccwify_obj_file`: one chunk written per input line, in
      order; other lines verbatim, face lines with their references reversed. */
  method FlipLines(lines: seq<string>) returns (out: seq<string>)
    ensures |out| == |lines|
    ensures forall i :: 0 <= i < |lines| ==> out[i] == FlipLine(lines[i])
    ensures forall i :: 0 <= i < |lines| && !IsFaceLine(lines[i]) ==> out[i] == lines[i]
    ensures forall i :: 0 <= i < |lines| && IsFaceLine(lines[i]) ==>
              IsFaceLine(out[i]) && FaceTokens(out[i]) == Reverse(FaceTokens(lines[i]))
  {
    out := [];
    var j := 0;
    while j < |lines|
      invariant 0 <= j <= |lines|
      invariant |out| == j
      invariant forall i :: 0 <= i < j ==> out[i] == FlipLine(lines[i])
    {
      out := out + [FlipLine(lines[j])];
      j := j + 1;
    }
    forall i | 0 <= i < |lines| && IsFaceLine(lines[i])
      ensures IsFaceLine(out[i]) && FaceTokens(out[i]) == Reverse(FaceTokens(lines[i]))
    {
      FlipLineFace(lines[i]);
    }
  }

  /** What the output file holds. */
  datatype ObjFile = ObjFile(path: string, lines: seq<string>)

  /** `ccwify_obj_file`: the path is rejected before any file is opened;
      otherwise the output file is named by `OutputPath` and holds the
      rewritten lines. */
  method Ccwify(path: string, lines: seq<string>) returns (r: Result<ObjFile>)
    ensures r.Ok? <==> CheckPath(path).Ok?
    ensures r.Err? ==> r.error == FileNotFoundError
    ensures r.Ok? ==> r.value.path == OutputPath(path) && |r.value.lines| == |lines|
    ensures r.Ok? ==> forall i :: 0 <= i < |lines| ==> r.value.lines[i] == FlipLine(lines[i])
  {
    var stem := CheckPath(path);
    if stem.Err? {
      return Err(stem.error);
    }
    var out := FlipLines(lines);
    return Ok(ObjFile(stem.value + CcwSuffix, out));
  }

  // ---------------------------------------------------------------------------
  // Splitting what `Join` built gives the tokens back.

  lemma {:induction false} SplitAllSpace(s: string)
    requires AllSpace(s)
    ensures Split(s) == []
    decreases |s|
  {
    if |s| > 0 {
      SplitAllSpace(s[1..]);
    }
  }

  /** A token followed by whitespace (or nothing) is split off whole. */
  lemma SplitToken(t: string, rest: string)
    requires IsToken(t)
    requires |rest| == 0 || IsSpace(rest[0])
    ensures Split(t + rest) == [t] + Split(rest)
  {
    var s := t + rest;
    var n := TokenLength(s);
    assert forall i :: 0 <= i < |t| ==> s[i] == t[i];
    assert |rest| > 0 ==> s[|t|] == rest[0];
    assert n == |t|;
    assert s[..n] == t;
    assert s[n..] == rest;
  }

  lemma {:induction false} SplitJoin(ts: seq<string>, tail: string)
    requires forall i :: 0 <= i < |ts| ==> IsToken(ts[i])
    requires AllSpace(tail)
    ensures Split(Join(ts) + tail) == ts
    decreases |ts|
  {
    if |ts| == 0 {
      assert Join(ts) + tail == tail;
      SplitAllSpace(tail);
    } else if |ts| == 1 {
      SplitToken(ts[0], tail);
      SplitAllSpace(tail);
    } else {
      var rest := Join(ts[1..]) + tail;
      JoinUnfold(ts, tail);
      SplitToken(ts[0], " " + rest);
      SplitJoin(ts[1..], tail);
    }
  }

  /** The join of two or more tokens, followed by `tail`: the first token, a
      space, and the join of the others followed by `tail`. */
  lemma JoinUnfold(ts: seq<string>, tail: string)
    requires |ts| >= 2
    ensures Join(ts) + tail == ts[0] + (" " + (Join(ts[1..]) + tail))
    ensures (" " + (Join(ts[1..]) + tail))[1..] == Join(ts[1..]) + tail
  {
    var j := Join(ts[1..]);
    assert Join(ts) == ts[0] + " " + j;
    SpaceSeparated(ts[0], j, tail);
  }

  lemma SpaceSeparated(a: string, j: string, tail: string)
    ensures a + " " + j + tail == a + (" " + (j + tail))
    ensures (" " + (j + tail))[1..] == j + tail
  {
  }

  /** The vertex references of a face line are the split of what follows "f ". */
  lemma FaceTokensAfterPrefix(line: string)
    requires IsFaceLine(line)
    ensures FaceTokens(line) == Split(line[2..])
  {
    assert line == "f" + line[1..];
    SplitToken("f", line[1..]);
    assert line[1..][1..] == line[2..];
  }

  /** The rewritten line is a face line whose references are the originals reversed. */
  lemma FlipLineFace(line: string)
    requires IsFaceLine(line)
    ensures IsFaceLine(FlipLine(line))
    ensures FaceTokens(FlipLine(line)) == Reverse(FaceTokens(line))
    ensures FlipLine(line)[|FlipLine(line)| - 1] == '\n'
  {
    var ts := Reverse(FaceTokens(line));
    var out := FlipLine(line);
    assert out == FacePrefix + (Join(ts) + "\n");
    assert out[..2] == FacePrefix;
    FaceTokensAfterPrefix(out);
    assert out[2..] == Join(ts) + "\n";
    SplitJoin(ts, "\n");
  }

  lemma {:induction false} ReverseReverse<T>(s: seq<T>)
    ensures Reverse(Reverse(s)) == s
    decreases |s|
  {
    if |s| > 0 {
      ReverseReverse(s[1..]);
      ReverseAppend(Reverse(s[1..]), [s[0]]);
      assert Reverse([s[0]]) == [s[0]];
      assert [s[0]] + s[1..] == s;
    }
  }

  lemma {:induction false} ReverseAppend<T>(a: seq<T>, b: seq<T>)
    ensures Reverse(a + b) == Reverse(b) + Reverse(a)
  {
    var l := Reverse(a + b);
    var r := Reverse(b) + Reverse(a);
    assert |l| == |r|;
    forall i | 0 <= i < |l|
      ensures l[i] == r[i]
    {
      if i < |b| {
        assert l[i] == (a + b)[|a| + |b| - 1 - i];
      }
    }
  }

  /** Flipping twice restores the order of the references, and keeps their number. */
  lemma FlipTwiceRestoresTokens(line: string)
    requires IsFaceLine(line)
    ensures |FaceTokens(FlipLine(line))| == |FaceTokens(line)|
    ensures FaceTokens(FlipLine(FlipLine(line))) == FaceTokens(line)
  {
    FlipLineFace(line);
    FlipLineFace(FlipLine(line));
    ReverseReverse(FaceTokens(line));
  }

  /** A third flip gives back the first: after one pass the line is in the
      normal form "f " + references + newline. */
  lemma FlipThriceIsFlip(line: string)
    ensures FlipLine(FlipLine(FlipLine(line))) == FlipLine(line)
  {
    if IsFaceLine(line) {
      FlipTwiceRestoresTokens(line);
      FlipLineFace(FlipLine(line));
    }
  }
}

=== FILE: textures.dfy ===
/** The texture atlas of textures.py: a list of textures and a dictionary
    from alias to list index. The empty alias names the default
    ("missing texture") image in slot 0. Textures are opaque values of type T;
    decoding the image file is outside the model. */
module Textures {
  import opened Basics

  /** Alias reserved for the default texture. */
  const DefaultAlias: string := ""

  datatype Atlas<T> = Atlas(aliases: map<string, int>, textures: seq<T>)

  /** A key for `atlas[key]`: an int selects a texture, anything else an alias. */
  datatype Key = IntKey(i: int) | AliasKey(alias: string)

  /** What `atlas[key]` returns: a texture for an int key, an index for an alias. */
  datatype Item<T> = Texture(texture: T) | Index(index: int)

  /** Aliases map onto list positions. */
  predicate InRange<T>(a: Atlas<T>) {
    forall k :: k in a.aliases ==> 0 <= a.aliases[k] < |a.textures|
  }

  /** No two aliases share a list position. */
  predicate Injective<T>(a: Atlas<T>) {
    forall k, k' :: k in a.aliases && k' in a.aliases && k != k' ==> a.aliases[k] != a.aliases[k']
  }

  /** The class invariant: every atlas built by `New` and `AddTex` satisfies it. */
  predicate Valid<T>(a: Atlas<T>) {
    && DefaultAlias in a.aliases
    && a.aliases[DefaultAlias] == 0
    && |a.aliases| == |a.textures|
    && InRange(a)
    && Injective(a)
  }

  /** `Atlas.__init__`, with the already decoded default image as a parameter. */
  function New<T>(default: T): (a: Atlas<T>)
    ensures Valid(a)
    ensures a.aliases.Keys == {DefaultAlias}
    ensures a.textures == [default]
    ensures AliasLookup(a, DefaultAlias) == Ok(default)
  {
    Atlas(map[DefaultAlias := 0], [default])
  }

  /** `add_tex`: a known alias overwrites its texture, a new alias is appended. */
  function AddTex<T>(a: Atlas<T>, alias: string, texture: T): (r: Atlas<T>)
    requires Valid(a)
    ensures Valid(r)
    ensures alias in r.aliases && AliasLookup(r, alias) == Ok(texture)
    ensures r.aliases.Keys == a.aliases.Keys + {alias}
    ensures forall k :: k in a.aliases ==> r.aliases[k] == a.aliases[k]
    ensures alias !in a.aliases ==> r.aliases[alias] == |a.textures| && |r.textures| == |a.textures| + 1
    ensures alias in a.aliases ==> |r.textures| == |a.textures|
    ensures forall i :: 0 <= i < |a.textures| && i != r.aliases[alias] ==> r.textures[i] == a.textures[i]
  {
    if alias in a.aliases then
      a.(textures := a.textures[a.aliases[alias] := texture])
    else
      Atlas(a.aliases[alias := |a.textures|], a.textures + [texture])
  }

  /** `alias_lookup`: the texture an alias names; an unknown alias raises KeyError. */
  function AliasLookup<T>(a: Atlas<T>, alias: string): (r: Result<T>)
    ensures alias !in a.aliases ==> r == Err(KeyError)
    ensures Valid(a) && alias in a.aliases ==> r == Ok(a.textures[a.aliases[alias]])
  {
    var i :- Lookup(a.aliases, alias);
    PyIndex(a.textures, i)
  }

  /** `__getitem__`: an int indexes the texture list, an alias the alias table. */
  function GetItem<T>(a: Atlas<T>, key: Key): (r: Result<Item<T>>)
    ensures key.AliasKey? ==> (r.Ok? <==> key.alias in a.aliases)
    ensures key.AliasKey? && r.Ok? ==> r.value == Index(a.aliases[key.alias])
    ensures key.IntKey? ==> (r.Ok? <==> -|a.textures| <= key.i < |a.textures|)
    ensures key.IntKey? && 0 <= key.i < |a.textures| ==> r == Ok(Texture(a.textures[key.i]))
    ensures key.IntKey? && -|a.textures| <= key.i < 0 ==> r == Ok(Texture(a.textures[|a.textures| + key.i]))
    ensures key.IntKey? && r.Err? ==> r.error == IndexError
    ensures key.AliasKey? && r.Err? ==> r.error == KeyError
  {
    match key
    case IntKey(i) =>
      var t :- PyIndex(a.textures, i);
      Ok(Texture(t))
    case AliasKey(s) =>
      var i :- Lookup(a.aliases, s);
      Ok(Index(i))
  }

  /** `__contains__`: membership in the alias table. */
  function Contains<T>(a: Atlas<T>, alias: string): (b: bool)
    ensures Valid(a) ==> (b <==> AliasLookup(a, alias).Ok?)
  {
    alias in a.aliases
  }

  /** `atlas[atlas[alias]]` is the texture `alias_lookup(alias)` returns. */
  lemma DoubleIndexIsLookup<T>(a: Atlas<T>, alias: string)
    requires Valid(a)
    requires alias in a.aliases
    ensures GetItem(a, AliasKey(alias)).Ok?
    ensures GetItem(a, IntKey(GetItem(a, AliasKey(alias)).value.index)) == Ok(Texture(AliasLookup(a, alias).value))
  {
  }

  /** Adding a texture leaves every other alias naming the texture it named before. */
  lemma AddTexKeepsOtherLookups<T>(a: Atlas<T>, alias: string, texture: T, other: string)
    requires Valid(a)
    requires other != alias
    ensures AliasLookup(AddTex(a, alias, texture), other) == AliasLookup(a, other)
  {
    if other in a.aliases && alias in a.aliases {
      assert a.aliases[other] != a.aliases[alias];
    }
  }

  /** In a valid atlas every list slot is named by some alias: the alias
      table is a bijection onto the positions of the texture list. */
  lemma EveryIndexNamed<T>(a: Atlas<T>)
    requires Valid(a)
    ensures a.aliases.Values == Positions(|a.textures|)
  {
    var range := Positions(|a.textures|);
    InjectiveValuesCardinality(a.aliases);
    assert a.aliases.Values <= range;
    assert |range - a.aliases.Values| == 0;
  }

  /** The list positions `0 .. n-1`. */
  function Positions(n: nat): (r: set<int>)
    ensures forall i :: i in r <==> 0 <= i < n
    ensures |r| == n
  {
    if n == 0 then {} else Positions(n - 1) + {n - 1}
  }

  lemma {:induction false} InjectiveValuesCardinality(m: map<string, int>)
    requires forall k, k' :: k in m && k' in m && k != k' ==> m[k] != m[k']
    ensures |m.Values| == |m.Keys|
    decreases |m|
  {
    if |m| > 0 {
      var k :| k in m;
      var rest := m - {k};
      InjectiveValuesCardinality(rest);
      forall v | v in m.Values
        ensures v in rest.Values + {m[k]}
      {
        var k' :| k' in m && m[k'] == v;
        if k' != k {
          assert k' in rest;
        }
      }
      forall v | v in rest.Values
        ensures v in m.Values
      {
        var k' :| k' in rest && rest[k'] == v;
        assert k' in m;
      }
      assert m.Values == rest.Values + {m[k]};
      assert m[k] !in rest.Values;
      assert m.Keys == rest.Keys + {k};
    }
  }
}
